=== FILE: README.md ===
# Unified-diff segmenter and find/replace applier

This project models the two Python scripts that turn a unified diff into a list of
`{file, find, replace}` records, plus the patcher's routine that applies those records
as literal find/replace edits. It states and proves properties of that model in Dafny.

- `parse_diff_file` (diff-files/smart_patcher.py) reads a diff file line by line.
  - It takes the target path from `+++ ` headers, using a regular expression that drops
    an `a/` or `b/` prefix and a trailing date.
  - A hunk ends at a `diff `, `+++ ` or `@@ ` line.
- `parse_diff` (extract_diff.py, and its identical copy diff-files/extract_diff.py, one
  line earlier throughout) splits a diff text on `\n`.
  - Only `+++ b/` is a header, and the path is the rest of the line.
  - A hunk ends only at `diff --git` or `@@ `.
- `apply_changes` (diff-files/smart_patcher.py) applies the records in order to the files
  on disk.

Both scripts share one two-loop scan:
- The outer loop reads headers and hunk headers.
- The inner loop collects `-` lines into a find buffer and `+` lines into a replace buffer.
- Each context line flushes the buffers as one record.
- At the end of a hunk the inner loop flushes what is left. It leaves the line that ended
  the hunk for the outer loop to read again.

The model keeps this shape. `Segmenter.ScanFrom` and `Segmenter.ScanHunk` are the two
loops, and `Segmenter.Variant` selects which script's header test and hunk terminator
apply.

`SinglePass` recasts the scan as a fold that handles each line once. It proves that this
fold gives the same blocks as the two-loop scan. `SegmentProperties` states what the scan
promises, against definitions that look only at the input lines:
- which lines lie inside a hunk;
- which of them are removals and additions;
- which header was read last.

`Header` is a hand-written model of the patcher's header pattern
`^\+\+\+ (?:[ab]/)?(.+?)(?:\s+\d{4}-\d{2}-\d{2}.*)?$`:
- the optional prefix is taken only when a non-empty path remains after it;
- the lazy group is the shortest non-empty prefix after which the line ends, or continues
  with whitespace and a `dddd-dd-dd` date.

`Applier` models the file system as a map from path to the text stored in each file.
- A file is read in text mode, so the content the records are matched against has
  universal newlines: `\r\n` and a lone `\r` become `\n` (`Applier.ReadText`).
- A file is written back in text mode on a POSIX system, where `\n` is written as is.
- So an applied record rewrites its whole file with the content as read, and a file with
  `\r\n` or `\r` line ends comes back with `\n` ones.

`Text` models the Python string operations involved:
- `startswith`;
- `strip()`;
- `'\n'.join`;
- `split('\n')`;
- `in`;
- `replace(old, new, 1)`.

The comments in `apply_changes` (diff-files/smart_patcher.py:119-122) call a record with
an empty find text an insertion that cannot be placed. The test that follows them (line 124)
skips such a record only when its replacement is non-empty. A record with both texts empty
(from a lone `-` line) therefore passes that test. The empty text occurs at index 0, so the
record is applied, and the file is rewritten with its content as read
(`Applier.EmptyRecordNormalisesNewlines`). The model follows the test, not the comments.

## Model

| member | source | states |
|---|---|---|
| Text.LStrip | diff-files/smart_patcher.py:35 | the result is a suffix of the input, everything dropped is whitespace, and the result does not start with whitespace |
| Text.RStrip | diff-files/smart_patcher.py:35 | the result is a prefix of the input, everything dropped is whitespace, and the result does not end with whitespace |
| Text.StripIsSlice | diff-files/smart_patcher.py:35 | `strip()` returns a contiguous slice with only whitespace outside it and no whitespace at either end |
| Text.Strip | diff-files/smart_patcher.py:35 | `strip()` returns a text no longer than its input that neither starts nor ends with whitespace |
| Text.Join | diff-files/smart_patcher.py:71-72 | `'\n'.join` gives the empty text exactly for no lines or a single empty line |
| Text.Split | extract_diff.py:15 | `split('\n')` yields at least one piece and no piece holds a `\n` |
| Text.JoinSplit | extract_diff.py:15 | joining the pieces of a split with `\n` gives the text back |
| Text.SplitJoin | extract_diff.py:15 | splitting a join of one or more newline-free lines gives the lines back |
| Text.IndexFrom | diff-files/smart_patcher.py:133 | the result is the leftmost occurrence at or after the start index, or none exists |
| Text.Index | diff-files/smart_patcher.py:133 | a result exists exactly when the pattern is a substring, and it is the leftmost occurrence |
| Text.Contains | diff-files/smart_patcher.py:133 | `find_text in content` holds exactly when the find text is a substring of the content |
| Text.ReplaceFirst | diff-files/smart_patcher.py:141 | with no occurrence the text is unchanged; otherwise exactly the leftmost occurrence is replaced |
| Text.ReplaceBySelf | diff-files/smart_patcher.py:141 | replacing a text by itself changes nothing |
| Text.ReplaceKeepsLaterOccurrence | diff-files/smart_patcher.py:141 | a later, non-overlapping occurrence survives the replacement, shifted by the change in length |
| Header.SkipSpaces | diff-files/smart_patcher.py:15 | the `\s+` run of the timestamp tail ends at the first non-whitespace character |
| Header.StopFrom | diff-files/smart_patcher.py:15 | the first position at or after a start where the pattern's tail can match |
| Header.PathGroup | diff-files/smart_patcher.py:15 | the lazy group is the shortest non-empty prefix after which the tail matches |
| Header.Unprefixed | diff-files/smart_patcher.py:15 | the text after the marker is a suffix of the line, shortened by two exactly when it starts with `a/` or `b/` and more follows |
| Header.MatchPathIsPatternMatch | diff-files/smart_patcher.py:15 | `file_pattern.match` fails exactly when no choice of optional prefix and path group fits the line; otherwise its group is that of the preferred match: the prefix is taken whenever some match takes it, and the group is the shortest one for that prefix |
| Header.PatcherFile | diff-files/smart_patcher.py:29-35 | the file of a `+++ ` line is the path group, or `""` from the strip fallback when the line is just the marker |
| Header.PatcherFileIsPieceOfLine | diff-files/smart_patcher.py:32 | the parsed path is non-empty and starts right after the marker or right after `a/`/`b/` |
| Header.PatcherFileRoundTrip | diff-files/smart_patcher.py:15 | `+++ a/<path>` and `+++ b/<path>` give back any whitespace-free path |
| Header.PatcherFileDropsTimestamp | diff-files/smart_patcher.py:15 | a whitespace run then a `dddd-dd-dd` date after the path is cut off |
| Header.PatcherFileNoPrefix | diff-files/smart_patcher.py:15 | without an `a/`/`b/` prefix to drop, the whole whitespace-free remainder is the path |
| Header.OnlyOnePrefixDropped | diff-files/smart_patcher.py:15 | `+++ b/a/x` names `a/x` |
| Header.BarePrefixIsThePath | diff-files/smart_patcher.py:15 | `+++ a/` names `a/`, because the group needs a character |
| Header.LazyGroupStopsInsideLeadingBlanks | diff-files/smart_patcher.py:15 | `+++   2024-01-01` names a single blank |
| Header.ExtractorFile | extract_diff.py:12 | the extractor's file is exactly the text after `+++ b/` |
| Header.ExtractorFileRoundTrip | extract_diff.py:21-22 | any path written after `+++ b/` is recovered |
| Segmenter.HeaderFile | diff-files/smart_patcher.py:29 | a line is a header exactly when it starts with `+++ ` (patcher) or `+++ b/` (extractor) |
| Segmenter.HunkHeaderEndsHunk | diff-files/smart_patcher.py:53 | a hunk header ends the hunk before it, in both scripts |
| Segmenter.Flush | diff-files/smart_patcher.py:82-87 | a record is emitted exactly when one of the buffers is non-empty, and it carries both buffers and the current file |
| Segmenter.ScanHunk | diff-files/smart_patcher.py:48-87 | the inner loop stops at or after its start, and every block it emits is non-empty and carries the current file |
| Segmenter.ScanHunkStopsAtTerminator | diff-files/smart_patcher.py:51-54 | the inner loop stops at the first hunk-ending line (`diff `, `+++ `, `@@ ` in the patcher; `diff --git`, `@@ ` in the extractor), or at the end of input, and passes over no hunk-ending line |
| Segmenter.ScanFrom | diff-files/smart_patcher.py:24-92 | the outer loop terminates and emits only non-empty blocks |
| Segmenter.ToRecord | diff-files/smart_patcher.py:69-73 | a record carries its block's file; a text is empty exactly when its buffer held no line or one empty line; a non-empty buffer of newline-free lines splits back out of its text |
| Segmenter.Segment | diff-files/smart_patcher.py:69-73 | one record per block, carrying the block's file, and each record's find and replace texts split on `\n` give back the block's non-empty, newline-free buffers |
| SinglePass.BlocksAreSinglePass | diff-files/smart_patcher.py:89-90 | re-reading the line that ended a hunk gives the same blocks as a single pass that closes the hunk and then treats that line as the outer loop would |
| SinglePass.HunkAgrees | diff-files/smart_patcher.py:48-90 | the inner loop followed by the outer loop from where it stopped equals the single pass with a hunk open |
| SinglePass.OuterAgrees | diff-files/smart_patcher.py:25-92 | the outer loop equals the single pass with no hunk open |
| SegmentProperties.FlushKeepsLines | diff-files/smart_patcher.py:68-75 | a flush moves the buffers into the output without losing or reordering a line |
| SegmentProperties.RunInvariant | diff-files/smart_patcher.py:24-92 | after any prefix of the input, the scan state knows whether a hunk is open, holds the current file, and has kept every change line in order |
| SegmentProperties.ChangeLinesPreserved | diff-files/smart_patcher.py:56-87 | the blocks' find buffers, concatenated, are exactly the in-hunk `-` lines without their marker, in order; likewise the blocks' replace buffers and the `+` lines |
| SegmentProperties.NoRecordsIffNoChangeLines | diff-files/smart_patcher.py:64-92 | a diff yields no record exactly when no line inside a hunk starts with `-` or `+` |
| SegmentProperties.RecordsComeFromNonEmptyBuffers | diff-files/smart_patcher.py:68 | every record has a non-empty find list or a non-empty replace list |
| SegmentProperties.FlushCarriesCurrentFile | diff-files/smart_patcher.py:70 | each line only appends to the output, and what it appends carries the file of the last header line read by the outer loop before it |
| SegmentProperties.FinalFlushCarriesCurrentFile | diff-files/smart_patcher.py:81-87 | the blocks flushed at end of input carry the file of the last header line |
| SegmentProperties.ContextLineFlushes | diff-files/smart_patcher.py:64-75 | a context line in a hunk flushes the pending lines as one block of the current file and empties both buffers |
| SegmentProperties.RecordsSplitBack | diff-files/smart_patcher.py:68-87 | when no input line holds a `\n`, every record carries its block's file and its find and replace texts split back into the block's buffers whenever those held a line |
| Scripts.ParseDiffFile | diff-files/smart_patcher.py:5-94 | `parse_diff_file` on the lines of the file returns no record exactly when no in-hunk line starts with `-` or `+`; its blocks keep every in-hunk `-` and `+` line in order; when no line holds a `\n`, each record's find and replace texts split back into its block's buffers whenever that buffer held a line (`'\n'.join` cannot tell `[]` from `[""]`) |
| Scripts.ParseDiff | extract_diff.py:7-72 | `parse_diff` returns no record exactly when no in-hunk line of the text starts with `-` or `+`; its blocks keep every in-hunk `-` and `+` line in order; every record's find and replace texts split back into its block's buffers whenever that buffer held a line |
| SegmentExamples.RemovalStep | diff-files/smart_patcher.py:56-58 | a `-` line never ends a hunk and goes to the find buffer without its marker, in both scripts, `--- a/x` included |
| SegmentExamples.AdditionStep | diff-files/smart_patcher.py:60-62 | a `+` line that does not end the hunk goes to the replace buffer without its marker |
| SegmentExamples.ContextStep | diff-files/smart_patcher.py:64-75 | a context line flushes non-empty buffers as one block and continues with empty ones |
| SegmentExamples.UnmarkedLineStep | diff-files/smart_patcher.py:77-79 | an in-hunk line that does not end the hunk and starts with none of `-`, `+` and a blank (an empty line, a `\ No newline at end of file` marker) is skipped with the buffers unchanged |
| SegmentExamples.StopStep | diff-files/smart_patcher.py:81-87 | at a hunk-ending line or the end of input, what the buffers hold is flushed and the line is not consumed |
| SegmentExamples.HunkHeaderStep | diff-files/smart_patcher.py:40-45 | a hunk header is consumed and the inner loop starts after it with empty buffers |
| SegmentExamples.HeaderStep | diff-files/smart_patcher.py:29-37 | a header line sets the current file and is consumed |
| SegmentExamples.ExtractorReadsHeaderAsAddition | extract_diff.py:39-45 | inside a hunk the extractor appends a `+++ b/x` line to the replace buffer as `++ b/x` |
| SegmentExamples.PatcherStopsAtHeader | diff-files/smart_patcher.py:53-54 | inside a hunk the patcher ends the hunk at a `+++ ` line, then reads it as the new current file |
| SegmentExamples.PlainDiffLineEndsOnlyPatcherHunks | diff-files/smart_patcher.py:53 | a `diff ` line that is not `diff --git` ends a hunk in the patcher and is skipped inside a hunk by the extractor |
| SegmentExamples.ContextSplitsRecords | diff-files/smart_patcher.py:64-87 | `-A`,`-B`,` C`,`+D` gives `{find:"A\nB",replace:""}` then `{find:"",replace:"D"}` |
| SegmentExamples.InterleavedEdits | diff-files/smart_patcher.py:64-87 | each run of edits up to a context line is one record |
| SegmentExamples.LoneMinusLine | diff-files/smart_patcher.py:82-87 | a lone `-` line gives a record with empty find and replace texts |
| SegmentExamples.CarriageReturnsKept | extract_diff.py:15 | splitting on `\n` only keeps `\r` at the end of extracted lines, and the empty piece after the last `\n` is skipped |
| Applier.ReadText | diff-files/smart_patcher.py:115-116 | text-mode reading never lengthens the stored text and leaves no `\r` in it |
| Applier.ReadTextKeepsIff | diff-files/smart_patcher.py:115-116 | reading gives the stored text back exactly when it holds no `\r` |
| Applier.ReadTextTranslatesLineEnds | diff-files/smart_patcher.py:115-116 | reading copies the text up to its first `\r` and turns a `\r\n` pair or a lone `\r` there into one `\n`, then reads on; with `ReadTextKeepsIff` this fixes what universal-newline reading gives for every stored text |
| Applier.ApplyRecord | diff-files/smart_patcher.py:109-145 | a missing file is reported; an insertion is skipped; a find text that is not a substring of the content as read is reported with the files unchanged; otherwise only the target file changes, and it becomes the content as read with its leftmost occurrence of the find text replaced |
| Applier.ApplyAll | diff-files/smart_patcher.py:102-111 | every record gets an outcome, no file appears or disappears, and a file no record names is unchanged |
| Applier.ApplyAllAsWritten | diff-files/smart_patcher.py:109 | the batch stops exactly when some record has no file, and it stops at the first such record |
| Applier.ApplyAllAppend | diff-files/smart_patcher.py:102 | records run in order, each against the files the earlier ones left |
| Applier.OutcomeOfRecord | diff-files/smart_patcher.py:102-141 | each record's outcome is that of applying it alone to the files the records before it left |
| Applier.SkippedRecordLetsRestProceed | diff-files/smart_patcher.py:109-138 | a record that is not applied changes nothing, and the rest of the batch proceeds as if it were absent |
| Applier.IdenticalReplacementNormalisesNewlines | diff-files/smart_patcher.py:115-145 | a record whose find text equals its replacement, when applied, rewrites its file with the content as read; the files stay the same exactly when the record is not applied or the file holds no `\r` |
| Applier.EmptyRecordNormalisesNewlines | diff-files/smart_patcher.py:124-145 | a record with both texts empty for an existing file is not an insertion: it is applied and rewrites the file with its content as read |
| Applier.RewriteDropsCarriageReturns | diff-files/smart_patcher.py:115-145 | a file rewritten by a record whose replacement holds no `\r` holds no `\r` afterwards |
| Applier.ReplacesMiddleLine | diff-files/smart_patcher.py:141 | replacing `line2` by `lineX` in `line1\nline2\nline3` gives `line1\nlineX\nline3` |
| Applier.AsWrittenAgreesWithoutNoneFiles | diff-files/smart_patcher.py:109 | when every record has a file, the batch as written is the intended batch |
| Applier.AsWrittenRunsIntendedPrefix | diff-files/smart_patcher.py:102-145 | as written, every record before the one that stops the batch is applied exactly as in the intended batch, with the same files and outcomes |
| Applier.NoneFileStopsBatch | diff-files/smart_patcher.py:109 | as written, a record without a file stops the batch before a later record for an existing file is applied |

## Left out

- Reading the diff file, `splitlines()`, the missing-diff-file error, `sys.exit`, `main` and the command line: the patcher's model takes the list of lines as input.
- The download with `urllib` in extract_diff.py and the local file read in diff-files/extract_diff.py: the model takes the text as input.
- All `print` output, including the per-record messages of `apply_changes`.
- Opening files, UTF-8 decoding and the blanket `except Exception`: the file system is a map, so no I/O error can occur.
- Applier.ApplyAll: paths are map keys compared as strings, so `a.txt` and `./a.txt`, or a file and a symlink to it, are different files here though they are one file on disk; a directory, which `os.path.exists` accepts and `open` then fails on, is not modelled.
- Applier.IdenticalReplacementNormalisesNewlines: writing is modelled as on POSIX; on Windows text mode writes each `\n` as `os.linesep` (`\r\n`), so there a rewritten file gets `\r\n` line ends instead.
- Applier.EmptyRecordNormalisesNewlines: writing is modelled as on POSIX, as for the identical replacement above.
- Applier.ReadText: models only the newline translation of text mode; the stored text is taken as already decoded characters.
- Scripts.ParseDiffFile: takes the lines `splitlines()` returns; the split-back promise needs lines without `\n`, which `splitlines()` guarantees, and the further line breaks `splitlines()` knows (`\r`, `\v`, `\f`, `\x1c`-`\x1e`, `\x85`, `\u2028`, `\u2029`) are left to whoever supplies the lines.
- The `re` engine itself: both header patterns are modelled by hand.
- Text.IsSpace: covers only the whitespace characters of the Latin-1 range. Python's `\s` and `isspace()` also accept further Unicode spaces.
- Text.IsDigit: covers only ASCII digits. Python's `\d` also accepts other Unicode decimal digits.
- Header.MatchPath: assumes the line holds no `\n`, which `.` in the pattern would not match. `splitlines()` never produces such a line.
- ghoul-patches/uniform_conversion.h is not part of this model: it does floating-point casts and makes foreign OpenGL calls.
- find_double_gl_usage.py is not part of this model: it runs external tools and writes CSV.

## Findings

| source | as written | input that shows it | evidently intended | confidence | as-written member | corrected member |
|---|---|---|---|---|---|---|
| diff-files/smart_patcher.py:109 | `os.path.exists(filepath)` is called outside the `try` with `filepath` set to `None` for hunks before any `+++ ` line. On POSIX that call raises `TypeError`, which ends `apply_changes` | a diff whose first hunk precedes every `+++ ` header, followed by a hunk for an existing file | report the record as a missing file and go on with the rest of the batch, as the "File not found ... Skipping." branch does | medium; not executed | Applier.ApplyAllAsWritten, Applier.AsWrittenRunsIntendedPrefix, Applier.NoneFileStopsBatch | Applier.ApplyAll |

=== FILE: applier.dfy ===
/**
 The find/replace applier of the patcher (`apply_changes`), over a file
 system modelled as a map from path to the text stored in the file. The file
 is read in text mode, so the content the records are matched against has
 universal newlines (`ReadText`); it is written back in text mode on a POSIX
 system, where `\n` is written as is. Records are applied in order, each
 against the files the earlier ones left. For one record:
 - a file that does not exist is reported and skipped;
 - an empty find text with a non-empty replacement (a pure insertion) is
   skipped;
 - a find text that does not occur is reported and the file is left alone;
 - otherwise the leftmost occurrence is replaced and the file rewritten with
   the content as read, so a file with `\r\n` or `\r` line ends is
   rewritten with `\n` ones.

 A record whose file is `None` (a hunk before any `+++ ` header) reaches
 the existence test as `None`. On POSIX that test raises instead of
 answering false, outside the `try`, so the remaining records are never
 applied: `ApplyAllAsWritten` models that, `ApplyAll` the evidently intended
 behaviour of reporting the record as a missing file.
 */
module Applier {
  import opened Wrappers
  import opened Text
  import opened Segmenter

  type FileSystem = map<string, string>

  datatype Outcome = Applied | SkippedInsertion | SearchNotFound | FileNotFound

  /** The state after one record: the files and what happened. */
  datatype StepResult = StepResult(fs: FileSystem, outcome: Outcome)

  /** The state after a batch. `aborted` is set when the batch stopped at a
      record that raised; the outcomes then cover the records before it. */
  datatype Batch = Batch(fs: FileSystem, outcomes: seq<Outcome>, aborted: bool)

  /** `os.path.exists(path)` for a string path: the empty path never exists. */
  predicate Exists(fs: FileSystem, path: string) {
    path != "" && path in fs
  }

  /** The record names an existing file. */
  predicate Targets(fs: FileSystem, c: ChangeRecord) {
    c.file.Some? && Exists(fs, c.file.value)
  }

  /** A pure insertion: nothing to search for, something to insert. */
  predicate IsInsertion(c: ChangeRecord) {
    c.find == "" && c.replace != ""
  }

  /** `open(path, 'r').read()` of the stored text: universal newlines turn
      `\r\n` and a lone `\r` into `\n`. */
  function ReadText(raw: string): (s: string)
    ensures |s| <= |raw|
    ensures '\r' !in s
    decreases |raw|
  {
    if raw == [] then ""
    else if raw[0] == '\r' then
      "\n" + ReadText(if |raw| >= 2 && raw[1] == '\n' then raw[2..] else raw[1..])
    else
      [raw[0]] + ReadText(raw[1..])
  }

  /** Reading leaves a text alone exactly when it holds no `\r`. */
  lemma {:induction false} ReadTextKeepsIff(raw: string)
    ensures ReadText(raw) == raw <==> '\r' !in raw
    decreases |raw|
  {
    if raw != [] && raw[0] != '\r' {
      ReadTextKeepsIff(raw[1..]);
      assert raw == [raw[0]] + raw[1..];
      assert ('\r' !in raw) == ('\r' !in raw[1..]);
    }
  }

  /** Reading copies the text up to the first `\r`, turns a `\r\n` pair or a
      lone `\r` there into one `\n`, and goes on with the rest. With
      `ReadTextKeepsIff` this fixes `ReadText` on every text. */
  lemma ReadTextTranslatesLineEnds(a: string, b: string)
    requires '\r' !in a
    ensures ReadText(a + "\r\n" + b) == a + "\n" + ReadText(b)
    ensures b == [] || b[0] != '\n' ==> ReadText(a + "\r" + b) == a + "\n" + ReadText(b)
  {
    ReadTextAt(a, "\r\n", b);
    if b == [] || b[0] != '\n' {
      ReadTextAt(a, "\r", b);
    }
  }

  /** Helper: reading `a + e + b` where `a` holds no `\r` and the line end
      `e` is read as one `\n`. */
  lemma ReadTextAt(a: string, e: string, b: string)
    requires '\r' !in a
    requires e == "\r\n" || (e == "\r" && (b == [] || b[0] != '\n'))
    ensures ReadText(a + e + b) == a + "\n" + ReadText(b)
  {
    var x := e + b;
    assert a + e + b == a + x;
    ReadTextAfterPlainText(a, x);
    if e == "\r\n" {
      ReadTextCrLf(b);
    } else {
      ReadTextLoneCr(b);
    }
    assert ReadText(x) == "\n" + ReadText(b);
    assert a + ("\n" + ReadText(b)) == a + "\n" + ReadText(b);
  }

  /** Helper: a `\r\n` pair is read as one `\n`. */
  lemma ReadTextCrLf(b: string)
    ensures ReadText("\r\n" + b) == "\n" + ReadText(b)
  {
    assert ("\r\n" + b)[2..] == b;
  }

  /** Helper: a `\r` not followed by `\n` is read as `\n`. */
  lemma ReadTextLoneCr(b: string)
    requires b == [] || b[0] != '\n'
    ensures ReadText("\r" + b) == "\n" + ReadText(b)
  {
    assert ("\r" + b)[1..] == b;
  }

  /** Helper: a text without `\r` in front is copied as is. */
  lemma {:induction false} ReadTextAfterPlainText(a: string, b: string)
    requires '\r' !in a
    ensures ReadText(a + b) == a + ReadText(b)
    decreases |a|
  {
    if a == [] {
      assert a + b == b;
    } else {
      assert '\r' !in a[1..] by { assert forall k :: 0 <= k < |a[1..]| ==> a[1..][k] == a[k + 1]; }
      ReadTextAfterPlainText(a[1..], b);
      ReadTextCopies(a[0], a[1..] + b);
      assert a + b == [a[0]] + (a[1..] + b);
      assert a == [a[0]] + a[1..];
    }
  }

  /** Helper: a character other than `\r` is copied. */
  lemma ReadTextCopies(c: char, rest: string)
    requires c != '\r'
    ensures ReadText([c] + rest) == [c] + ReadText(rest)
  {
    assert ([c] + rest)[1..] == rest;
  }

  /** One record, in the order of the checks of the loop body. */
  function ApplyRecord(fs: FileSystem, c: ChangeRecord): (r: StepResult)
    ensures r.outcome == FileNotFound <==> !Targets(fs, c)
    ensures r.outcome == SkippedInsertion <==> Targets(fs, c) && IsInsertion(c)
    ensures r.outcome == SearchNotFound <==>
              Targets(fs, c) && !IsInsertion(c) && !IsSubstring(c.find, ReadText(fs[c.file.value]))
    ensures r.outcome != Applied ==> r.fs == fs
    ensures r.outcome == Applied ==>
              var content := ReadText(fs[c.file.value]);
              && r.fs.Keys == fs.Keys
              && IsSubstring(c.find, content)
              && (forall p: nat :: FirstOccurrence(content, c.find, p) ==>
                    r.fs[c.file.value] == content[..p] + c.replace + content[p + |c.find|..])
              && (forall k :: k in fs && k != c.file.value ==> r.fs[k] == fs[k])
  {
    if !Targets(fs, c) then StepResult(fs, FileNotFound)
    else
      var path := c.file.value;
      var content := ReadText(fs[path]);
      if IsInsertion(c) then StepResult(fs, SkippedInsertion)
      else if !Contains(content, c.find) then StepResult(fs, SearchNotFound)
      else StepResult(fs[path := ReplaceFirst(content, c.find, c.replace)], Applied)
  }

  /** The batch with a `None` file reported as a missing file. */
  function ApplyAll(fs: FileSystem, cs: seq<ChangeRecord>): (r: Batch)
    ensures |r.outcomes| == |cs| && !r.aborted
    ensures r.fs.Keys == fs.Keys
    ensures forall k :: k in fs && (forall i :: 0 <= i < |cs| ==> cs[i].file != Some(k)) ==> r.fs[k] == fs[k]
  {
    if cs == [] then Batch(fs, [], false)
    else
      var s := ApplyRecord(fs, cs[0]);
      var rest := ApplyAll(s.fs, cs[1..]);
      Batch(rest.fs, [s.outcome] + rest.outcomes, false)
  }

  /** The batch as written: a record without a file stops it. */
  function ApplyAllAsWritten(fs: FileSystem, cs: seq<ChangeRecord>): (r: Batch)
    ensures |r.outcomes| <= |cs|
    ensures r.aborted <==> exists i :: 0 <= i < |cs| && cs[i].file.None?
    ensures !r.aborted ==> |r.outcomes| == |cs|
    ensures r.aborted ==> |r.outcomes| < |cs| && cs[|r.outcomes|].file.None?
    ensures forall i :: 0 <= i < |r.outcomes| ==> cs[i].file.Some?
  {
    if cs == [] then Batch(fs, [], false)
    else if cs[0].file.None? then Batch(fs, [], true)
    else
      var s := ApplyRecord(fs, cs[0]);
      var rest := ApplyAllAsWritten(s.fs, cs[1..]);
      assert forall i :: 1 <= i < |cs| ==> cs[i] == cs[1..][i - 1];
      assert rest.aborted ==> cs[1 + |rest.outcomes|] == cs[1..][|rest.outcomes|];
      Batch(rest.fs, [s.outcome] + rest.outcomes, rest.aborted)
  }

  // ---------------------------------------------------------------------------
  // Properties

  /** Records run in order: a batch split in two is the first part followed by
      the second part against the files the first part left. */
  lemma {:induction false} ApplyAllAppend(fs: FileSystem, a: seq<ChangeRecord>, b: seq<ChangeRecord>)
    ensures var x := ApplyAll(fs, a);
            var y := ApplyAll(x.fs, b);
            ApplyAll(fs, a + b) == Batch(y.fs, x.outcomes + y.outcomes, false)
  {
    if a == [] {
      assert a + b == b;
    } else {
      var s := ApplyRecord(fs, a[0]);
      ApplyAllCons(fs, a);
      ApplyAllCons(fs, a + b);
      assert (a + b)[0] == a[0] && (a + b)[1..] == a[1..] + b;
      ApplyAllAppend(s.fs, a[1..], b);
      var x' := ApplyAll(s.fs, a[1..]);
      var y := ApplyAll(x'.fs, b);
      assert [s.outcome] + (x'.outcomes + y.outcomes) == ([s.outcome] + x'.outcomes) + y.outcomes;
    }
  }

  /** One unfolding of the batch. */
  lemma ApplyAllCons(fs: FileSystem, cs: seq<ChangeRecord>)
    requires cs != []
    ensures var s := ApplyRecord(fs, cs[0]);
            var rest := ApplyAll(s.fs, cs[1..]);
            ApplyAll(fs, cs) == Batch(rest.fs, [s.outcome] + rest.outcomes, false)
  {
  }

  /** The outcome of record `i` is that of applying it alone to the files
      the records before it left. */
  lemma OutcomeOfRecord(fs: FileSystem, cs: seq<ChangeRecord>, i: nat)
    requires i < |cs|
    ensures ApplyAll(fs, cs).outcomes[i] == ApplyRecord(ApplyAll(fs, cs[..i]).fs, cs[i]).outcome
  {
    var before := ApplyAll(fs, cs[..i]);
    assert cs == cs[..i] + cs[i..];
    ApplyAllAppend(fs, cs[..i], cs[i..]);
    assert cs[i..][0] == cs[i];
  }

  /** A record that is skipped or reported changes nothing and the rest of the
      batch proceeds as if it were absent. */
  lemma SkippedRecordLetsRestProceed(fs: FileSystem, c: ChangeRecord, rest: seq<ChangeRecord>)
    requires ApplyRecord(fs, c).outcome != Applied
    ensures ApplyAll(fs, [c] + rest)
            == Batch(ApplyAll(fs, rest).fs, [ApplyRecord(fs, c).outcome] + ApplyAll(fs, rest).outcomes, false)
  {
    assert ([c] + rest)[1..] == rest;
  }

  /** A record whose find text equals its replacement, when applied,
      rewrites its file with the content as read: the files stay the same
      exactly when the record is not applied or the file holds no `\r`. */
  lemma IdenticalReplacementNormalisesNewlines(fs: FileSystem, c: ChangeRecord)
    requires c.find == c.replace
    ensures var r := ApplyRecord(fs, c);
            && (r.outcome == Applied ==> r.fs == fs[c.file.value := ReadText(fs[c.file.value])])
            && (r.fs == fs <==> r.outcome != Applied || '\r' !in fs[c.file.value])
  {
    var r := ApplyRecord(fs, c);
    if r.outcome == Applied {
      var path := c.file.value;
      ReplaceBySelf(ReadText(fs[path]), c.find);
      ReadTextKeepsIff(fs[path]);
      assert r.fs == fs[path := ReadText(fs[path])];
      assert r.fs == fs ==> r.fs[path] == fs[path];
    }
  }

  /** A lone `-` line gives a record with empty find and replace texts; it is
      not an insertion, the empty text occurs everywhere, and the file is
      rewritten with the content as read. */
  lemma EmptyRecordNormalisesNewlines(fs: FileSystem, path: string)
    requires Exists(fs, path)
    ensures ApplyRecord(fs, ChangeRecord(Some(path), "", ""))
            == StepResult(fs[path := ReadText(fs[path])], Applied)
  {
    var c := ChangeRecord(Some(path), "", "");
    assert Occurs(ReadText(fs[path]), "", 0);
    IdenticalReplacementNormalisesNewlines(fs, c);
  }

  /** A record whose replacement holds no `\r` leaves none in the file it
      rewrites, whatever line ends the file had. */
  lemma RewriteDropsCarriageReturns(fs: FileSystem, c: ChangeRecord)
    requires ApplyRecord(fs, c).outcome == Applied && '\r' !in c.replace
    ensures '\r' !in ApplyRecord(fs, c).fs[c.file.value]
  {
    var content := ReadText(fs[c.file.value]);
    var p := Index(content, c.find).value;
    var r := content[..p] + c.replace + content[p + |c.find|..];
    assert ApplyRecord(fs, c).fs[c.file.value] == r;
    forall m | 0 <= m < |r|
      ensures r[m] != '\r'
    {
      if m < p {
        assert r[m] == content[m];
      } else if m < p + |c.replace| {
        assert r[m] == c.replace[m - p];
      } else {
        assert r[m] == content[m - |c.replace| + |c.find|];
      }
    }
  }

  /** Replacing one line of three. */
  lemma ReplacesMiddleLine()
    ensures ApplyRecord(map["f.txt" := "line1\nline2\nline3"],
                        ChangeRecord(Some("f.txt"), "line2", "lineX"))
            == StepResult(map["f.txt" := "line1\nlineX\nline3"], Applied)
  {
    var fs := map["f.txt" := "line1\nline2\nline3"];
    var c := ChangeRecord(Some("f.txt"), "line2", "lineX");
    MiddleLineReplaced("line1\nline2\nline3");
    ReadsAsStored("line1\nline2\nline3");
    AppliedAs(fs, c, "line1\nlineX\nline3");
    assert fs["f.txt" := "line1\nlineX\nline3"] == map["f.txt" := "line1\nlineX\nline3"];
  }

  /** Helper: a record for an existing file whose find text occurs in the
      content as read is applied, and the file becomes `after`. */
  lemma AppliedAs(fs: FileSystem, c: ChangeRecord, after: string)
    requires Targets(fs, c) && !IsInsertion(c)
    requires IsSubstring(c.find, ReadText(fs[c.file.value]))
    requires ReplaceFirst(ReadText(fs[c.file.value]), c.find, c.replace) == after
    ensures ApplyRecord(fs, c) == StepResult(fs[c.file.value := after], Applied)
  {
  }

  lemma ReadsAsStored(content: string)
    requires content == "line1\nline2\nline3"
    ensures ReadText(content) == content
  {
    assert forall m :: 0 <= m < |content| ==> content[m] != '\r';
    ReadTextKeepsIff(content);
  }

  lemma MiddleLineReplaced(content: string)
    requires content == "line1\nline2\nline3"
    ensures Occurs(content, "line2", 6)
    ensures ReplaceFirst(content, "line2", "lineX") == "line1\nlineX\nline3"
  {
    assert Occurs(content, "line2", 6);
    forall q: nat | q < 6 ensures !Occurs(content, "line2", q) {
      assert "line2"[4] == '2';
      assert content[4..10] == "1\nline";
      assert content[q + 4] == content[4..10][q];
    }
    assert FirstOccurrence(content, "line2", 6);
    assert content[..6] + "lineX" + content[11..] == "line1\nlineX\nline3";
  }

  // ---------------------------------------------------------------------------
  // The `None` file as written

  /** Without `None` files the batch as written is the intended batch. */
  lemma {:induction false} AsWrittenAgreesWithoutNoneFiles(fs: FileSystem, cs: seq<ChangeRecord>)
    requires forall i :: 0 <= i < |cs| ==> cs[i].file.Some?
    ensures ApplyAllAsWritten(fs, cs) == ApplyAll(fs, cs)
  {
    if cs != [] {
      var s := ApplyRecord(fs, cs[0]);
      assert forall i :: 0 <= i < |cs[1..]| ==> cs[1..][i] == cs[i + 1];
      AsWrittenAgreesWithoutNoneFiles(s.fs, cs[1..]);
    }
  }

  /** As written, the records before the batch stops are applied exactly as
      in the intended batch: same files, same outcomes. */
  lemma {:induction false} AsWrittenRunsIntendedPrefix(fs: FileSystem, cs: seq<ChangeRecord>)
    ensures AsWrittenIsIntendedPrefix(fs, cs)
  {
    if cs != [] && cs[0].file.Some? {
      var s := ApplyRecord(fs, cs[0]);
      AsWrittenRunsIntendedPrefix(s.fs, cs[1..]);
      AsWrittenPrefixStep(fs, cs);
    } else {
      assert ApplyAllAsWritten(fs, cs).outcomes == [];
      assert cs[..0] == [];
    }
  }

  /** The batch as written agrees with the intended batch over the records
      it got through. */
  ghost predicate AsWrittenIsIntendedPrefix(fs: FileSystem, cs: seq<ChangeRecord>) {
    var r := ApplyAllAsWritten(fs, cs);
    var p := ApplyAll(fs, cs[..|r.outcomes|]);
    r.fs == p.fs && r.outcomes == p.outcomes
  }

  /** Helper: the inductive step, for a first record with a file. */
  lemma AsWrittenPrefixStep(fs: FileSystem, cs: seq<ChangeRecord>)
    requires cs != [] && cs[0].file.Some?
    requires AsWrittenIsIntendedPrefix(ApplyRecord(fs, cs[0]).fs, cs[1..])
    ensures AsWrittenIsIntendedPrefix(fs, cs)
  {
    var s := ApplyRecord(fs, cs[0]);
    var rest := ApplyAllAsWritten(s.fs, cs[1..]);
    AsWrittenCons(fs, cs);
    var n := |rest.outcomes|;
    IntendedPrefixCons(fs, cs, n);
  }

  /** Helper: the intended batch over the first `1 + n` records starts with
      the first record and goes on with the next `n`. */
  lemma IntendedPrefixCons(fs: FileSystem, cs: seq<ChangeRecord>, n: nat)
    requires 1 + n <= |cs|
    ensures var s := ApplyRecord(fs, cs[0]);
            var q := ApplyAll(s.fs, cs[1..][..n]);
            ApplyAll(fs, cs[..1 + n]) == Batch(q.fs, [s.outcome] + q.outcomes, false)
  {
    var front := cs[..1 + n];
    assert front[0] == cs[0] && front[1..] == cs[1..][..n];
    ApplyAllCons(fs, front);
  }

  /** Helper: one step of the batch as written, for a record with a file. */
  lemma AsWrittenCons(fs: FileSystem, cs: seq<ChangeRecord>)
    requires cs != [] && cs[0].file.Some?
    ensures var s := ApplyRecord(fs, cs[0]);
            var rest := ApplyAllAsWritten(s.fs, cs[1..]);
            ApplyAllAsWritten(fs, cs) == Batch(rest.fs, [s.outcome] + rest.outcomes, rest.aborted)
  {
  }

  /** A hunk before any header, followed by one for an existing file: as
      written, the batch stops at the first record and the second file is
      never patched; the intended batch reports the first and patches the
      second. */
  lemma NoneFileStopsBatch()
    ensures var fs := map["a.txt" := "x"];
            var cs := [ChangeRecord(None, "x", "y"), ChangeRecord(Some("a.txt"), "x", "y")];
            && ApplyAllAsWritten(fs, cs) == Batch(fs, [], true)
            && ApplyAll(fs, cs) == Batch(map["a.txt" := "y"], [FileNotFound, Applied], false)
  {
    var fs := map["a.txt" := "x"];
    var c := ChangeRecord(Some("a.txt"), "x", "y");
    ReadTextKeepsIff("x");
    assert FirstOccurrence("x", "x", 0);
    assert ReplaceFirst("x", "x", "y") == "x"[..0] + "y" + "x"[1..] == "y";
    assert ApplyRecord(fs, c) == StepResult(map["a.txt" := "y"], Applied);
  }
}

=== FILE: examples.dfy ===
/**
 Concrete diffs and the records each script extracts from them. The proofs
 walk the inner loop one line at a time.
 */
module SegmentExamples {
  import opened Wrappers
  import opened Segmenter
  import opened Scripts

  // ---------------------------------------------------------------------------
  // One step of each loop, for walking through concrete diffs

  /** A line starting with `-` never ends a hunk and goes to the find buffer. */
  lemma RemovalStep(v: Variant, lines: seq<string>, i: nat, f: Option<string>, r: seq<string>, a: seq<string>,
                     r': seq<string>)
    requires i < |lines| && |lines[i]| > 0 && lines[i][0] == '-'
    requires r' == r + [lines[i][1..]]
    ensures ScanHunk(v, lines, i, f, r, a) == ScanHunk(v, lines, i + 1, f, r', a)
  {
    var line := lines[i];
    assert line[..1] == "-";
    assert !EndsHunk(v, line) by {
      assert "diff "[0] == 'd' && "diff --git"[0] == 'd' && "+++ "[0] == '+' && "@@ "[0] == '@';
    }
  }

  /** A line starting with `+` that does not end the hunk goes to the replace
      buffer. */
  lemma AdditionStep(v: Variant, lines: seq<string>, i: nat, f: Option<string>, r: seq<string>, a: seq<string>,
                      a': seq<string>)
    requires i < |lines| && |lines[i]| > 0 && lines[i][0] == '+' && !EndsHunk(v, lines[i])
    requires a' == a + [lines[i][1..]]
    ensures ScanHunk(v, lines, i, f, r, a) == ScanHunk(v, lines, i + 1, f, r, a')
  {
    var line := lines[i];
    assert line[..1] == "+";
    assert "-"[0] == '-';
  }

  /** A context line flushes the buffers. */
  lemma ContextStep(v: Variant, lines: seq<string>, i: nat, f: Option<string>, r: seq<string>, a: seq<string>,
                     j: nat, later: seq<Block>, out: seq<Block>)
    requires i < |lines| && |lines[i]| > 0 && lines[i][0] == ' '
    requires (r != [] || a != []) && ScanHunk(v, lines, i + 1, f, [], []) == (j, later)
    requires out == [Block(f, r, a)] + later
    ensures ScanHunk(v, lines, i, f, r, a) == (j, out)
  {
    var line := lines[i];
    assert line[..1] == " ";
    assert "-"[0] == '-' && "+"[0] == '+';
    assert !EndsHunk(v, line) by {
      assert "diff "[0] == 'd' && "diff --git"[0] == 'd' && "+++ "[0] == '+' && "@@ "[0] == '@';
    }
  }

  /** A line inside a hunk that does not end it and starts with none of
      `-`, `+` or a space (an empty line, or the `\ No newline at end of
      file` marker) neither buffers nor flushes anything. */
  lemma UnmarkedLineStep(v: Variant, lines: seq<string>, i: nat, f: Option<string>, r: seq<string>, a: seq<string>)
    requires i < |lines| && !EndsHunk(v, lines[i])
    requires !("-" <= lines[i]) && !("+" <= lines[i]) && !(" " <= lines[i])
    ensures ScanHunk(v, lines, i, f, r, a) == ScanHunk(v, lines, i + 1, f, r, a)
  {
  }

  /** The end of input, or a hunk-ending line, stops the inner loop. */
  lemma StopStep(v: Variant, lines: seq<string>, i: nat, f: Option<string>, r: seq<string>, a: seq<string>)
    requires i <= |lines| && (i == |lines| || EndsHunk(v, lines[i]))
    requires r != [] || a != []
    ensures ScanHunk(v, lines, i, f, r, a) == (i, [Block(f, r, a)])
  {
  }

  /** The outer loop at a hunk header runs the inner loop after it. */
  lemma HunkHeaderStep(v: Variant, lines: seq<string>, i: nat, f: Option<string>, j: nat, hunk: seq<Block>)
    requires i < |lines| && |lines[i]| >= 3 && lines[i][..3] == "@@ "
    requires ScanHunk(v, lines, i + 1, f, [], []) == (j, hunk)
    ensures ScanFrom(v, lines, i, f) == hunk + ScanFrom(v, lines, j, f)
  {
    var line := lines[i];
    assert IsHunkHeader(line);
    assert HeaderFile(v, line).None? by {
      assert "+++ "[0] == '+' && line[0] == '@';
    }
  }

  /** The outer loop at a file header makes its file current. */
  lemma HeaderStep(v: Variant, lines: seq<string>, i: nat, f: Option<string>, g: string)
    requires i < |lines| && HeaderFile(v, lines[i]) == Some(g)
    ensures ScanFrom(v, lines, i, f) == ScanFrom(v, lines, i + 1, Some(g))
  {
  }

  /** The records of a diff with one block. */
  lemma RecordsOfOne(v: Variant, lines: seq<string>, b: Block)
    requires Blocks(v, lines) == [b]
    ensures Segment(v, lines) == [ToRecord(b)]
  {
  }

  /** The records of a diff with two blocks. */
  lemma RecordsOfTwo(v: Variant, lines: seq<string>, b1: Block, b2: Block)
    requires Blocks(v, lines) == [b1, b2]
    ensures Segment(v, lines) == [ToRecord(b1), ToRecord(b2)]
  {
  }

  // ---------------------------------------------------------------------------
  // Where the two scripts differ, for any input

  /** In the extractor a `+++ b/` line inside a hunk does not end it: it goes
      to the replace buffer with its first `+` dropped. */
  lemma ExtractorReadsHeaderAsAddition(lines: seq<string>, i: nat, f: Option<string>,
                                       r: seq<string>, a: seq<string>)
    requires i < |lines| && "+++ b/" <= lines[i]
    ensures ScanHunk(ExtractDiff, lines, i, f, r, a) == ScanHunk(ExtractDiff, lines, i + 1, f, r, a + [lines[i][1..]])
  {
    var line := lines[i];
    assert line[0] == "+++ b/"[0] == '+';
    assert !EndsHunk(ExtractDiff, line) by {
      assert "diff --git"[0] == 'd' && "@@ "[0] == '@';
    }
    AdditionStep(ExtractDiff, lines, i, f, r, a, a + [line[1..]]);
  }

  /** In the patcher the same line ends the hunk: the buffers are flushed
      and the line is left for the outer loop, which reads it as a header. */
  lemma PatcherStopsAtHeader(lines: seq<string>, i: nat, f: Option<string>,
                             r: seq<string>, a: seq<string>)
    requires i < |lines| && "+++ " <= lines[i]
    ensures ScanHunk(SmartPatcher, lines, i, f, r, a) == (i, Flush(f, r, a))
    ensures ScanFrom(SmartPatcher, lines, i, f) == ScanFrom(SmartPatcher, lines, i + 1, Some(Header.PatcherFile(lines[i])))
  {
  }

  /** A `diff ` line that is not `diff --git` ends a hunk only in the patcher. */
  lemma PlainDiffLineEndsOnlyPatcherHunks(lines: seq<string>, i: nat, f: Option<string>,
                                          r: seq<string>, a: seq<string>)
    requires i < |lines| && "diff " <= lines[i] && !("diff --git" <= lines[i])
    ensures ScanHunk(SmartPatcher, lines, i, f, r, a) == (i, Flush(f, r, a))
    ensures ScanHunk(ExtractDiff, lines, i, f, r, a) == ScanHunk(ExtractDiff, lines, i + 1, f, r, a)
  {
    var line := lines[i];
    assert line[0] == 'd';
    assert !EndsHunk(ExtractDiff, line) by {
      assert "@@ "[0] == '@';
    }
    assert !("-" <= line) && !("+" <= line) && !(" " <= line) by {
      assert "-"[0] == '-' && "+"[0] == '+' && " "[0] == ' ';
    }
  }

  // ---------------------------------------------------------------------------
  // Examples

  /** Removals, a context line, then an addition: the context line splits
      them into two records, `{find: "A\nB", replace: ""}` and
      `{find: "", replace: "D"}`. */
  lemma ContextSplitsRecords()
    ensures ParseDiffFile(["@@ -1,3 +1,2 @@", "-A", "-B", " C", "+D"])
            == [ChangeRecord(None, "A\nB", ""), ChangeRecord(None, "", "D")]
  {
    var lines := ["@@ -1,3 +1,2 @@", "-A", "-B", " C", "+D"];
    var bA, bD := Block(None, ["A", "B"], []), Block(None, [], ["D"]);
    ContextSplitsBlocks(lines);
    RecordsOfTwo(SmartPatcher, lines, bA, bD);
    assert Text.Join(["A", "B"]) == "A\nB";
  }

  lemma ContextSplitsBlocks(lines: seq<string>)
    requires lines == ["@@ -1,3 +1,2 @@", "-A", "-B", " C", "+D"]
    ensures Blocks(SmartPatcher, lines) == [Block(None, ["A", "B"], []), Block(None, [], ["D"])]
  {
    var v := SmartPatcher;
    var bA := Block(None, ["A", "B"], []);
    var bD := Block(None, [], ["D"]);
    assert lines[1][1..] == "A" && lines[2][1..] == "B";
    ContextSplitsTail(lines);
    RemovalStep(v, lines, 2, None, ["A"], [], ["A", "B"]);
    RemovalStep(v, lines, 1, None, [], [], ["A"]);
    HunkHeaderStep(v, lines, 0, None, 5, [bA, bD]);
    assert ScanFrom(v, lines, 5, None) == [];
  }

  lemma ContextSplitsTail(lines: seq<string>)
    requires lines == ["@@ -1,3 +1,2 @@", "-A", "-B", " C", "+D"]
    ensures ScanHunk(SmartPatcher, lines, 3, None, ["A", "B"], [])
            == (5, [Block(None, ["A", "B"], []), Block(None, [], ["D"])])
  {
    var v := SmartPatcher;
    var bD := Block(None, [], ["D"]);
    assert lines[4][1..] == "D";
    assert !EndsHunk(v, lines[4]) by { assert "@@ "[0] == '@' && "diff "[0] == 'd'; }
    StopStep(v, lines, 5, None, [], ["D"]);
    AdditionStep(v, lines, 4, None, [], [], ["D"]);
    ContextStep(v, lines, 3, None, ["A", "B"], [], 5, [bD], [Block(None, ["A", "B"], []), bD]);
  }

  /** Interleaved edits: each run of removals and additions up to a context
      line is one record. */
  lemma InterleavedEdits()
    ensures ParseDiffFile(["@@ -1,3 +1,3 @@", "-X", "+Y", " Z", "-P", "+Q"])
            == [ChangeRecord(None, "X", "Y"), ChangeRecord(None, "P", "Q")]
  {
    var lines := ["@@ -1,3 +1,3 @@", "-X", "+Y", " Z", "-P", "+Q"];
    var bX, bP := Block(None, ["X"], ["Y"]), Block(None, ["P"], ["Q"]);
    InterleavedBlocks(lines);
    RecordsOfTwo(SmartPatcher, lines, bX, bP);
  }

  lemma InterleavedBlocks(lines: seq<string>)
    requires lines == ["@@ -1,3 +1,3 @@", "-X", "+Y", " Z", "-P", "+Q"]
    ensures Blocks(SmartPatcher, lines) == [Block(None, ["X"], ["Y"]), Block(None, ["P"], ["Q"])]
  {
    var v := SmartPatcher;
    var bX := Block(None, ["X"], ["Y"]);
    var bP := Block(None, ["P"], ["Q"]);
    assert lines[1][1..] == "X" && lines[2][1..] == "Y";
    assert !EndsHunk(v, lines[2]) by {
      assert "@@ "[0] == '@' && "diff "[0] == 'd';
    }
    InterleavedTail(lines);
    AdditionStep(v, lines, 2, None, ["X"], [], ["Y"]);
    RemovalStep(v, lines, 1, None, [], [], ["X"]);
    HunkHeaderStep(v, lines, 0, None, 6, [bX, bP]);
    assert ScanFrom(v, lines, 6, None) == [];
  }

  lemma InterleavedTail(lines: seq<string>)
    requires lines == ["@@ -1,3 +1,3 @@", "-X", "+Y", " Z", "-P", "+Q"]
    ensures ScanHunk(SmartPatcher, lines, 3, None, ["X"], ["Y"])
            == (6, [Block(None, ["X"], ["Y"]), Block(None, ["P"], ["Q"])])
  {
    var v := SmartPatcher;
    var bP := Block(None, ["P"], ["Q"]);
    assert lines[4][1..] == "P" && lines[5][1..] == "Q";
    assert !EndsHunk(v, lines[5]) by {
      assert "@@ "[0] == '@' && "diff "[0] == 'd';
    }
    StopStep(v, lines, 6, None, ["P"], ["Q"]);
    AdditionStep(v, lines, 5, None, ["P"], [], ["Q"]);
    RemovalStep(v, lines, 4, None, [], [], ["P"]);
    ContextStep(v, lines, 3, None, ["X"], ["Y"], 6, [bP], [Block(None, ["X"], ["Y"]), bP]);
  }

  /** A lone `-` line still yields a record, whose find text is empty. */
  lemma LoneMinusLine()
    ensures ParseDiffFile(["@@ -1 +0,0 @@", "-"]) == [ChangeRecord(None, "", "")]
  {
    var v := SmartPatcher;
    var lines := ["@@ -1 +0,0 @@", "-"];
    var b := Block(None, [""], []);
    assert lines[1][1..] == "";
    StopStep(v, lines, 2, None, [""], []);
    RemovalStep(v, lines, 1, None, [], [], [""]);
    HunkHeaderStep(v, lines, 0, None, 2, [b]);
    assert ScanFrom(v, lines, 2, None) == [];
    RecordsOfOne(v, lines, b);
  }

  /** Splitting on `\n` only: a CRLF diff keeps `\r` at the end of every
      extracted line, and the empty piece after the final `\n` is skipped. */
  lemma CarriageReturnsKept()
    ensures ParseDiff("@@ -1 +1 @@\r\n-a\r\n+b\r\n") == [ChangeRecord(None, "a\r", "b\r")]
  {
    var lines := ["@@ -1 +1 @@\r", "-a\r", "+b\r", ""];
    CrlfSplit();
    CrlfBlocks(lines);
    RecordsOfOne(ExtractDiff, lines, Block(None, ["a\r"], ["b\r"]));
  }

  lemma CrlfSplit()
    ensures Text.Split("@@ -1 +1 @@\r\n-a\r\n+b\r\n") == ["@@ -1 +1 @@\r", "-a\r", "+b\r", ""]
  {
    var lines := ["@@ -1 +1 @@\r", "-a\r", "+b\r", ""];
    assert Text.Join(lines) == "@@ -1 +1 @@\r\n-a\r\n+b\r\n";
    assert Text.NoNewline(lines);
    Text.SplitJoin(lines);
  }

  lemma CrlfBlocks(lines: seq<string>)
    requires lines == ["@@ -1 +1 @@\r", "-a\r", "+b\r", ""]
    ensures Blocks(ExtractDiff, lines) == [Block(None, ["a\r"], ["b\r"])]
  {
    var w := ExtractDiff;
    var blk := Block(None, ["a\r"], ["b\r"]);
    assert lines[1][1..] == "a\r" && lines[2][1..] == "b\r";
    assert !EndsHunk(w, lines[2]) && !EndsHunk(w, lines[3]) by {
      assert "@@ "[0] == '@' && "diff --git"[0] == 'd';
    }
    StopStep(w, lines, 4, None, ["a\r"], ["b\r"]);
    assert !(" " <= lines[3]) && !EndsHunk(w, lines[3]);
    UnmarkedLineStep(w, lines, 3, None, ["a\r"], ["b\r"]);
    AdditionStep(w, lines, 2, None, ["a\r"], [], ["b\r"]);
    RemovalStep(w, lines, 1, None, [], [], ["a\r"]);
    HunkHeaderStep(w, lines, 0, None, 4, [blk]);
    assert ScanFrom(w, lines, 4, None) == [];
  }
}

=== FILE: header.dfy ===
/**
 File-header recognition. The patcher reads the target path out of a `+++ `
 line with the pattern

     ^\+\+\+ (?:[ab]/)?(.+?)(?:\s+\d{4}-\d{2}-\d{2}.*)?$

 which is modelled here by hand: the optional `a/`/`b/` is taken when a
 non-empty path remains after it, and the lazy path group is the SHORTEST
 non-empty prefix of what remains after which the line either ends or
 continues with whitespace and a `dddd-dd-dd` date. The extractor only knows
 `+++ b/<path>`.
 */
module Header {
  import opened Wrappers
  import opened Text

  const Marker := "+++ "

  /** `s[k..]` begins with a `dddd-dd-dd` date. */
  predicate IsDateAt(s: string, k: nat) {
    k + 10 <= |s|
    && IsDigit(s[k]) && IsDigit(s[k + 1]) && IsDigit(s[k + 2]) && IsDigit(s[k + 3])
    && s[k + 4] == '-' && IsDigit(s[k + 5]) && IsDigit(s[k + 6])
    && s[k + 7] == '-' && IsDigit(s[k + 8]) && IsDigit(s[k + 9])
  }

  /** End of the whitespace run that starts at `k`. */
  function SkipSpaces(s: string, k: nat): (e: nat)
    requires k <= |s|
    ensures k <= e <= |s|
    ensures forall m :: k <= m < e ==> IsSpace(s[m])
    ensures e == |s| || !IsSpace(s[e])
    decreases |s| - k
  {
    if k < |s| && IsSpace(s[k]) then SkipSpaces(s, k + 1) else k
  }

  /** `s[k..]` matches the timestamp tail `\s+\d{4}-\d{2}-\d{2}.*`. A digit is
      never whitespace, so `\s+` can only stop at the end of the run. */
  predicate TimestampAt(s: string, k: nat) {
    k < |s| && IsSpace(s[k]) && IsDateAt(s, SkipSpaces(s, k))
  }

  /** `k` is a place where the lazy group may stop: the rest is empty or a
      timestamp tail. */
  predicate CanStop(s: string, k: nat) {
    k == |s| || TimestampAt(s, k)
  }

  /** Smallest stopping place at or after `k`. */
  function StopFrom(s: string, k: nat): (e: nat)
    requires 1 <= k <= |s|
    ensures k <= e <= |s| && CanStop(s, e)
    ensures forall m :: k <= m < e ==> !CanStop(s, m)
    decreases |s| - k
  {
    if k == |s| || TimestampAt(s, k) then k else StopFrom(s, k + 1)
  }

  /** The path group for the text after the marker (and after `a/`/`b/`):
      the shortest non-empty prefix after which the pattern can end. */
  function PathGroup(rest: string): (g: string)
    requires |rest| >= 1
    ensures 1 <= |g| <= |rest| && g == rest[..|g|]
    ensures CanStop(rest, |g|)
    ensures forall m :: 1 <= m < |g| ==> !CanStop(rest, m)
  {
    rest[..StopFrom(rest, 1)]
  }

  /** Text after the marker with an `a/` or `b/` dropped when that leaves at
      least one character (otherwise the optional group backtracks). */
  function Unprefixed(line: string): (rest: string)
    requires Marker <= line
    ensures |rest| == |line| - |Marker| || |rest| == |line| - |Marker| - 2
    ensures rest == line[|line| - |rest|..]
    ensures |rest| == |line| - |Marker| - 2
            <==> ("a/" <= line[|Marker|..] || "b/" <= line[|Marker|..]) && |line| > |Marker| + 2
  {
    var rest := line[|Marker|..];
    if ("a/" <= rest || "b/" <= rest) && |rest| > 2 then rest[2..] else rest
  }

  /** `g` can be the lazy group at the start of `rest`: a non-empty prefix
      after which the pattern can end. */
  ghost predicate IsGroupOf(rest: string, g: string) {
    1 <= |g| <= |rest| && rest[..|g|] == g && CanStop(rest, |g|)
  }

  /** The pattern matches `line` with the optional prefix group taking `p`
      (empty when it is skipped) and the lazy path group taking `g`. */
  ghost predicate GroupsMatch(line: string, p: string, g: string) {
    && Marker <= line
    && (p == "" || p == "a/" || p == "b/")
    && |Marker| + |p| <= |line|
    && line[|Marker|..|Marker| + |p|] == p
    && IsGroupOf(line[|Marker| + |p|..], g)
  }

  /** The match a backtracking engine reports: the greedy `?` takes the
      prefix whenever some match takes it, and the lazy group is the shortest
      one for that choice of prefix. */
  ghost predicate PreferredMatch(line: string, p: string, g: string) {
    && GroupsMatch(line, p, g)
    && (forall g' :: GroupsMatch(line, p, g') ==> |g| <= |g'|)
    && (p == "" ==> forall q, g' :: GroupsMatch(line, q, g') ==> q == "")
  }

  /** `file_pattern.match(line)`: the path group, or None when the pattern
      does not match. */
  function MatchPath(line: string): (r: Option<string>)
    ensures r.Some? <==> Marker <= line && |line| > |Marker|
    ensures r.Some? ==> r.value == PathGroup(Unprefixed(line))
  {
    if Marker <= line && |line| > |Marker| then Some(PathGroup(Unprefixed(line))) else None
  }

  /** `MatchPath` is the pattern's match: None exactly when no choice of
      prefix and group matches the line, and otherwise the group of the match
      a backtracking engine reports. */
  lemma MatchPathIsPatternMatch(line: string)
    ensures MatchPath(line).None? <==> forall p, g :: !GroupsMatch(line, p, g)
    ensures MatchPath(line).Some? ==> exists p :: PreferredMatch(line, p, MatchPath(line).value)
  {
    if Marker <= line && |line| > |Marker| {
      PathGroupIsPreferred(line);
    }
  }

  /** The path group of the unprefixed rest is the match the engine reports. */
  lemma PathGroupIsPreferred(line: string)
    requires Marker <= line && |line| > |Marker|
    ensures exists p :: PreferredMatch(line, p, PathGroup(Unprefixed(line)))
  {
    var rest := Unprefixed(line);
    var n := |line| - |rest|;
    var p := line[|Marker|..n];
    var g := PathGroup(rest);
    assert |Marker| + |p| == n && line[n..] == rest;
    assert p == "" || p == "a/" || p == "b/";
    assert GroupsMatch(line, p, g);
    assert line[|Marker| + |p|..] == rest;
    PathGroupIsShortest(line, p, rest);
    forall q, g' | GroupsMatch(line, q, g')
      ensures p == "" ==> q == ""
    {
      if q != "" {
        PrefixTakenWhenPossible(line, q, g');
      }
    }
    assert PreferredMatch(line, p, g);
  }

  /** For a fixed prefix choice, no group is shorter than the path group of
      the text after that prefix. */
  lemma PathGroupIsShortest(line: string, p: string, rest: string)
    requires |Marker| + |p| <= |line| && |rest| >= 1
    requires line[|Marker| + |p|..] == rest
    ensures forall g' :: GroupsMatch(line, p, g') ==> |PathGroup(rest)| <= |g'|
  {
    forall g' | GroupsMatch(line, p, g')
      ensures |PathGroup(rest)| <= |g'|
    {
      assert IsGroupOf(rest, g');
    }
  }

  /** When some match takes a prefix, `Unprefixed` drops it. */
  lemma PrefixTakenWhenPossible(line: string, q: string, g: string)
    requires GroupsMatch(line, q, g) && q != ""
    ensures |Unprefixed(line)| == |line| - |Marker| - 2
  {
    assert |q| == 2 && |line| > |Marker| + 2;
    assert line[|Marker|..][..2] == line[|Marker|..|Marker| + 2];
  }

  /** The file a `+++ ` line names in the patcher: the pattern's group, or
      `line[4:].strip()` when the pattern fails. */
  function PatcherFile(line: string): (f: string)
    requires Marker <= line
    ensures line == Marker ==> f == ""
    ensures line != Marker ==> f == PathGroup(Unprefixed(line))
  {
    match MatchPath(line)
    case Some(g) => g
    case None => Strip(line[|Marker|..])
  }

  /** The file a `+++ b/` line names in the extractor: the rest of the line. */
  function ExtractorFile(line: string): (f: string)
    requires "+++ b/" <= line
    ensures "+++ b/" + f == line
  {
    line[6..]
  }

  // ---------------------------------------------------------------------------
  // Properties of the patcher's header parser

  /** The parsed path is a non-empty piece of the line that starts right after
      the marker or right after an `a/`/`b/` prefix. */
  lemma PatcherFileIsPieceOfLine(line: string)
    requires Marker <= line && line != Marker
    ensures |PatcherFile(line)| >= 1
    ensures line[4..4 + |PatcherFile(line)|] == PatcherFile(line)
            || line[6..6 + |PatcherFile(line)|] == PatcherFile(line)
  {
    var rest := Unprefixed(line);
    var g := PatcherFile(line);
    assert |line| > |Marker|;
    assert g == rest[..|g|];
    assert rest == line[|line| - |rest|..];
  }

  /** The path group of a text whose first `n` characters hold no whitespace
      and after which the pattern can end is exactly those `n` characters. */
  lemma GroupOfSpaceFreeStart(rest: string, n: nat)
    requires 1 <= n <= |rest| && NoSpace(rest[..n]) && CanStop(rest, n)
    ensures PathGroup(rest) == rest[..n]
  {
  }

  /** A path without whitespace after the marker and a prefix comes back
      unchanged. */
  lemma PatcherFileRoundTrip(prefix: string, path: string)
    requires prefix == "a/" || prefix == "b/"
    requires |path| >= 1 && NoSpace(path)
    ensures PatcherFile(Marker + prefix + path) == path
  {
    UnprefixedDropsPrefix(prefix, path);
    GroupOfSpaceFreeStart(path, |path|);
  }

  /** A trailing timestamp, separated by whitespace, is cut off. */
  lemma PatcherFileDropsTimestamp(prefix: string, path: string, gap: string, date: string, tail: string)
    requires prefix == "a/" || prefix == "b/"
    requires |path| >= 1 && NoSpace(path)
    requires |gap| >= 1 && forall k :: 0 <= k < |gap| ==> IsSpace(gap[k])
    requires IsDateAt(date, 0)
    ensures PatcherFile(Marker + prefix + path + gap + date + tail) == path
  {
    var rest := path + gap + date + tail;
    assert Marker + prefix + path + gap + date + tail == Marker + prefix + rest;
    UnprefixedDropsPrefix(prefix, rest);
    TimestampAfterPath(path, gap, date, tail);
    assert rest[..|path|] == path;
    GroupOfSpaceFreeStart(rest, |path|);
  }

  /** Helper: an `a/` or `b/` followed by a non-empty rest is dropped. */
  lemma UnprefixedDropsPrefix(prefix: string, rest: string)
    requires prefix == "a/" || prefix == "b/"
    requires |rest| >= 1
    ensures Unprefixed(Marker + prefix + rest) == rest
  {
    assert (Marker + prefix + rest)[|Marker|..] == prefix + rest;
  }

  /** Helper: whitespace then a date, placed after a path, is a timestamp tail. */
  lemma TimestampAfterPath(path: string, gap: string, date: string, tail: string)
    requires |gap| >= 1 && forall k :: 0 <= k < |gap| ==> IsSpace(gap[k])
    requires IsDateAt(date, 0)
    ensures TimestampAt(path + gap + date + tail, |path|)
  {
    var rest := path + gap + date + tail;
    var e := |path| + |gap|;
    assert rest[e] == date[0];
    SkipAll(rest, |path|, e);
    assert rest[e..e + 10] == date[..10];
  }

  /** Helper: skipping a whitespace run that ends in a non-space. */
  lemma {:induction false} SkipAll(s: string, k: nat, e: nat)
    requires k <= e < |s|
    requires forall m :: k <= m < e ==> IsSpace(s[m])
    requires !IsSpace(s[e])
    ensures SkipSpaces(s, k) == e
    decreases e - k
  {
    if k < e {
      SkipAll(s, k + 1, e);
    }
  }

  /** Without a prefix to drop, the whole remainder is the path. */
  lemma PatcherFileNoPrefix(path: string)
    requires |path| >= 1 && NoSpace(path)
    requires |path| <= 2 || (!("a/" <= path) && !("b/" <= path))
    ensures PatcherFile(Marker + path) == path
  {
    var line := Marker + path;
    assert line[|Marker|..] == path;
    GroupOfSpaceFreeStart(path, |path|);
  }

  /** Only one prefix is dropped: `+++ b/a/x` names `a/x`. */
  lemma OnlyOnePrefixDropped()
    ensures PatcherFile("+++ b/a/x") == "a/x"
  {
    PatcherFileRoundTrip("b/", "a/x");
  }

  /** A bare `a/` is kept, because the path group needs a character. */
  lemma BarePrefixIsThePath()
    ensures PatcherFile("+++ a/") == "a/"
  {
    PatcherFileNoPrefix("a/");
  }

  /** The lazy group stops inside a leading whitespace run: the path of
      `+++   2024-01-01` is one blank. */
  lemma LazyGroupStopsInsideLeadingBlanks()
    ensures PatcherFile("+++   2024-01-01") == " "
  {
    var line := "+++   2024-01-01";
    var rest := "  2024-01-01";
    assert line[4..] == rest;
    assert !("a/" <= rest) && !("b/" <= rest) by { assert rest[0] == ' '; }
    assert Unprefixed(line) == rest;
    BlankThenDateGroup(rest);
  }

  /** Helper: after one blank the remainder is already a timestamp tail. */
  lemma BlankThenDateGroup(rest: string)
    requires rest == "  2024-01-01"
    ensures PathGroup(rest) == " "
  {
    assert TimestampAt(rest, 1) by {
      SkipAll(rest, 1, 2);
      assert IsDateAt(rest, 2);
    }
    assert StopFrom(rest, 1) == 1;
  }

  /** The extractor recovers any path written after `+++ b/`. */
  lemma ExtractorFileRoundTrip(path: string)
    ensures ExtractorFile("+++ b/" + path) == path
  {
  }
}

=== FILE: properties.dfy ===
/**
 What the segmenter promises, stated against reference definitions that only
 look at the input lines: which lines lie inside a hunk, which of them are
 removals and additions, and which file header was read last. The proofs go
 through the single pass (`SinglePass.Run`) and carry over to the two-loop
 scan by `SinglePass.BlocksAreSinglePass`.
 */
module SegmentProperties {
  import opened Wrappers
  import opened Segmenter
  import opened SinglePass
  import Text

  // ---------------------------------------------------------------------------
  // Reference definitions over the input lines

  /** After the first `n` lines a hunk is open exactly when the last
      hunk-ending line among them is a hunk header. */
  ghost function HunkOpenAfter(v: Variant, lines: seq<string>, n: nat): bool
    requires n <= |lines|
  {
    if n == 0 then false
    else if EndsHunk(v, lines[n - 1]) then IsHunkHeader(lines[n - 1])
    else HunkOpenAfter(v, lines, n - 1)
  }

  /** Line `k` is read as part of a hunk's body. */
  ghost predicate IsBodyLine(v: Variant, lines: seq<string>, k: nat)
    requires k < |lines|
  {
    HunkOpenAfter(v, lines, k) && !EndsHunk(v, lines[k])
  }

  /** The body lines among the first `n` that start with `marker`, with the
      marker dropped, in input order. */
  ghost function ChangeLines(v: Variant, lines: seq<string>, n: nat, marker: string): seq<string>
    requires n <= |lines| && |marker| == 1
  {
    if n == 0 then []
    else
      var k := n - 1;
      ChangeLines(v, lines, k, marker)
      + (if IsBodyLine(v, lines, k) && marker <= lines[k] then [lines[k][1..]] else [])
  }

  /** No line inside a hunk is a removal or an addition. */
  ghost predicate NoChangeLine(v: Variant, lines: seq<string>) {
    forall k :: 0 <= k < |lines| && IsBodyLine(v, lines, k) ==> !("-" <= lines[k]) && !("+" <= lines[k])
  }

  /** A line read by the outer loop (not a body line) that names a file. */
  ghost predicate IsFileHeaderLine(v: Variant, lines: seq<string>, k: nat)
    requires k < |lines|
  {
    !IsBodyLine(v, lines, k) && HeaderFile(v, lines[k]).Some?
  }

  /** The file named by the last header line among the first `n`, or None. */
  ghost function CurrentFile(v: Variant, lines: seq<string>, n: nat): Option<string>
    requires n <= |lines|
  {
    if n == 0 then None
    else if IsFileHeaderLine(v, lines, n - 1) then HeaderFile(v, lines[n - 1])
    else CurrentFile(v, lines, n - 1)
  }

  /** All removed lines of a block list, in order. */
  function AllRemoved(bs: seq<Block>): seq<string> {
    if bs == [] then [] else AllRemoved(bs[..|bs| - 1]) + bs[|bs| - 1].removed
  }

  /** All added lines of a block list, in order. */
  function AllAdded(bs: seq<Block>): seq<string> {
    if bs == [] then [] else AllAdded(bs[..|bs| - 1]) + bs[|bs| - 1].added
  }

  lemma {:induction false} AllRemovedAppend(xs: seq<Block>, ys: seq<Block>)
    ensures AllRemoved(xs + ys) == AllRemoved(xs) + AllRemoved(ys)
    decreases |ys|
  {
    if ys != [] {
      var ys' := ys[..|ys| - 1];
      assert (xs + ys)[..|xs + ys| - 1] == xs + ys';
      AllRemovedAppend(xs, ys');
    } else {
      assert xs + ys == xs;
    }
  }

  lemma {:induction false} AllAddedAppend(xs: seq<Block>, ys: seq<Block>)
    ensures AllAdded(xs + ys) == AllAdded(xs) + AllAdded(ys)
    decreases |ys|
  {
    if ys != [] {
      var ys' := ys[..|ys| - 1];
      assert (xs + ys)[..|xs + ys| - 1] == xs + ys';
      AllAddedAppend(xs, ys');
    } else {
      assert xs + ys == xs;
    }
  }

  /** Flushing moves the buffers into the output without losing a line. */
  lemma FlushKeepsLines(out: seq<Block>, file: Option<string>, removed: seq<string>, added: seq<string>)
    ensures AllRemoved(out + Flush(file, removed, added)) == AllRemoved(out) + removed
    ensures AllAdded(out + Flush(file, removed, added)) == AllAdded(out) + added
  {
    AllRemovedAppend(out, Flush(file, removed, added));
    AllAddedAppend(out, Flush(file, removed, added));
    var f := Flush(file, removed, added);
    if f != [] {
      assert AllRemoved(f) == AllRemoved([]) + f[0].removed;
      assert AllAdded(f) == AllAdded([]) + f[0].added;
    }
  }

  // ---------------------------------------------------------------------------
  // The invariant of the single pass

  ghost predicate Invariant(v: Variant, lines: seq<string>, n: nat, s: ScanState)
    requires n <= |lines|
  {
    && s.inHunk == HunkOpenAfter(v, lines, n)
    && (!s.inHunk ==> s.removed == [] && s.added == [])
    && s.file == CurrentFile(v, lines, n)
    && AllRemoved(s.out) + s.removed == ChangeLines(v, lines, n, "-")
    && AllAdded(s.out) + s.added == ChangeLines(v, lines, n, "+")
    && (forall b :: b in s.out ==> NonEmpty(b))
  }

  /** A body line keeps the hunk open and the file, and moves at most its own
      content into a buffer. */
  lemma BodyStepKeepsInvariant(v: Variant, lines: seq<string>, k: nat, s: ScanState)
    requires k < |lines| && Invariant(v, lines, k, s)
    requires s.inHunk && !EndsHunk(v, lines[k])
    ensures Invariant(v, lines, k + 1, Step(v, s, lines[k]))
  {
    var line := lines[k];
    assert IsBodyLine(v, lines, k);
    assert HunkOpenAfter(v, lines, k + 1);
    assert CurrentFile(v, lines, k + 1) == CurrentFile(v, lines, k);
    var t := Step(v, s, line);
    if "-" <= line {
      assert line[0] == '-' && !("+" <= line);
      assert ChangeLines(v, lines, k + 1, "-") == ChangeLines(v, lines, k, "-") + [line[1..]];
      assert ChangeLines(v, lines, k + 1, "+") == ChangeLines(v, lines, k, "+");
    } else if "+" <= line {
      assert ChangeLines(v, lines, k + 1, "-") == ChangeLines(v, lines, k, "-");
      assert ChangeLines(v, lines, k + 1, "+") == ChangeLines(v, lines, k, "+") + [line[1..]];
    } else {
      assert ChangeLines(v, lines, k + 1, "-") == ChangeLines(v, lines, k, "-");
      assert ChangeLines(v, lines, k + 1, "+") == ChangeLines(v, lines, k, "+");
      if " " <= line {
        FlushKeepsLines(s.out, s.file, s.removed, s.added);
      }
    }
  }

  /** A line read by the outer loop closes any open hunk, then sets the file
      or opens a new hunk. */
  lemma OuterStepKeepsInvariant(v: Variant, lines: seq<string>, k: nat, s: ScanState)
    requires k < |lines| && Invariant(v, lines, k, s)
    requires !(s.inHunk && !EndsHunk(v, lines[k]))
    ensures Invariant(v, lines, k + 1, Step(v, s, lines[k]))
  {
    var line := lines[k];
    assert !IsBodyLine(v, lines, k);
    assert ChangeLines(v, lines, k + 1, "-") == ChangeLines(v, lines, k, "-");
    assert ChangeLines(v, lines, k + 1, "+") == ChangeLines(v, lines, k, "+");
    var t := if s.inHunk then CloseHunk(s) else s;
    if s.inHunk {
      FlushKeepsLines(s.out, s.file, s.removed, s.added);
    }
    assert AllRemoved(t.out) == ChangeLines(v, lines, k, "-");
    assert AllAdded(t.out) == ChangeLines(v, lines, k, "+");
    if IsHunkHeader(line) {
      HunkHeaderEndsHunk(v, line);
      assert line[0] == '@' && HeaderFile(v, line).None?;
    }
  }

  /** After any number of lines, the state knows whether a hunk is open and
      which file is current, every line of a removal or addition is either
      in a flushed block or still buffered, and no flushed block is empty. */
  lemma {:induction false} RunInvariant(v: Variant, lines: seq<string>, n: nat)
    requires n <= |lines|
    ensures Invariant(v, lines, n, Run(v, lines, n))
  {
    if n > 0 {
      var k := n - 1;
      RunInvariant(v, lines, k);
      var s := Run(v, lines, k);
      assert Run(v, lines, n) == Step(v, s, lines[k]);
      if s.inHunk && !EndsHunk(v, lines[k]) {
        BodyStepKeepsInvariant(v, lines, k, s);
      } else {
        OuterStepKeepsInvariant(v, lines, k, s);
      }
    }
  }

  // ---------------------------------------------------------------------------
  // Properties of the segmenter

  /** No removed or added line is lost, duplicated or reordered: the blocks'
      find lines, concatenated, are exactly the in-hunk `-` lines with the
      marker dropped, in input order, and likewise for `+` lines. */
  lemma ChangeLinesPreserved(v: Variant, lines: seq<string>)
    ensures AllRemoved(Blocks(v, lines)) == ChangeLines(v, lines, |lines|, "-")
    ensures AllAdded(Blocks(v, lines)) == ChangeLines(v, lines, |lines|, "+")
  {
    BlocksAreSinglePass(v, lines);
    var s := Run(v, lines, |lines|);
    RunInvariant(v, lines, |lines|);
    if s.inHunk {
      FlushKeepsLines(s.out, s.file, s.removed, s.added);
    }
  }

  /** Body lines that are not `-`/`+` lines contribute no change lines. */
  lemma {:induction false} NoChangeLinesWithoutMarkers(v: Variant, lines: seq<string>, n: nat, marker: string)
    requires n <= |lines| && |marker| == 1
    requires forall k :: 0 <= k < n && IsBodyLine(v, lines, k) ==> !(marker <= lines[k])
    ensures ChangeLines(v, lines, n, marker) == []
  {
    if n > 0 {
      NoChangeLinesWithoutMarkers(v, lines, n - 1, marker);
    }
  }

  /** A change line at body position `k` shows up among the change lines. */
  lemma {:induction false} ChangeLineCounted(v: Variant, lines: seq<string>, n: nat, marker: string, k: nat)
    requires k < n <= |lines| && |marker| == 1
    requires IsBodyLine(v, lines, k) && marker <= lines[k]
    ensures ChangeLines(v, lines, n, marker) != []
  {
    if k < n - 1 {
      ChangeLineCounted(v, lines, n - 1, marker, k);
    }
  }

  /** A non-empty list of non-empty blocks holds at least one line. */
  lemma BlocksHoldLines(bs: seq<Block>)
    requires forall b :: b in bs ==> NonEmpty(b)
    requires bs != []
    ensures AllRemoved(bs) != [] || AllAdded(bs) != []
  {
    assert bs[|bs| - 1] in bs;
  }

  /** The diff yields no record exactly when no line inside a hunk is a
      removal or an addition (only context, or no hunk at all). */
  lemma NoRecordsIffNoChangeLines(v: Variant, lines: seq<string>)
    ensures Segment(v, lines) == [] <==> NoChangeLine(v, lines)
  {
    ChangeLinesPreserved(v, lines);
    var bs := Blocks(v, lines);
    if NoChangeLine(v, lines) {
      NoChangeLinesWithoutMarkers(v, lines, |lines|, "-");
      NoChangeLinesWithoutMarkers(v, lines, |lines|, "+");
      if bs != [] {
        BlocksHoldLines(bs);
      }
    } else {
      var k :| 0 <= k < |lines| && IsBodyLine(v, lines, k) && ("-" <= lines[k] || "+" <= lines[k]);
      if "-" <= lines[k] {
        ChangeLineCounted(v, lines, |lines|, "-", k);
      } else {
        ChangeLineCounted(v, lines, |lines|, "+", k);
      }
      assert bs != [];
    }
  }

  /** Every record comes from a non-empty buffer: a record is emitted only
      when its find lines or its replace lines are non-empty. */
  lemma RecordsComeFromNonEmptyBuffers(v: Variant, lines: seq<string>)
    ensures forall b :: b in Blocks(v, lines) ==> b.removed != [] || b.added != []
  {
  }

  /** Flushed blocks are final: processing another line only appends to the
      output, and whatever it appends carries the file named by the last
      header line before that line. */
  lemma FlushCarriesCurrentFile(v: Variant, lines: seq<string>, n: nat)
    requires n < |lines|
    ensures Run(v, lines, n).out <= Run(v, lines, n + 1).out
    ensures forall b :: b in Run(v, lines, n + 1).out[|Run(v, lines, n).out|..]
                        ==> b.file == CurrentFile(v, lines, n)
  {
    RunInvariant(v, lines, n);
    var s := Run(v, lines, n);
    assert Run(v, lines, n + 1) == Step(v, s, lines[n]);
    StepAppendsCurrentFile(v, s, lines[n]);
  }

  /** One step only appends, and what it appends carries the state's file. */
  lemma StepAppendsCurrentFile(v: Variant, s: ScanState, line: string)
    ensures s.out <= Step(v, s, line).out
    ensures forall b :: b in Step(v, s, line).out[|s.out|..] ==> b.file == s.file
  {
    var t := Step(v, s, line);
    var d := Flush(s.file, s.removed, s.added);
    assert t.out == s.out || t.out == s.out + d;
    assert (s.out + d)[|s.out|..] == d;
  }

  /** The blocks flushed at the end of input carry the file named by the last
      header line of the diff. */
  lemma FinalFlushCarriesCurrentFile(v: Variant, lines: seq<string>)
    ensures Run(v, lines, |lines|).out <= Blocks(v, lines)
    ensures forall b :: b in Blocks(v, lines)[|Run(v, lines, |lines|).out|..]
                        ==> b.file == CurrentFile(v, lines, |lines|)
  {
    BlocksAreSinglePass(v, lines);
    RunInvariant(v, lines, |lines|);
  }

  /** A context line inside a hunk flushes the pending lines as one block
      of the current file and empties both buffers. */
  lemma ContextLineFlushes(v: Variant, lines: seq<string>, n: nat)
    requires n < |lines| && IsBodyLine(v, lines, n)
    requires " " <= lines[n]
    ensures var s := Run(v, lines, n);
            && Run(v, lines, n + 1).out == s.out + Flush(CurrentFile(v, lines, n), s.removed, s.added)
            && Run(v, lines, n + 1).removed == [] && Run(v, lines, n + 1).added == []
  {
    RunInvariant(v, lines, n);
    var s := Run(v, lines, n);
    assert s.inHunk && lines[n][0] == ' ';
    assert Run(v, lines, n + 1) == Step(v, s, lines[n]);
  }

  // ---------------------------------------------------------------------------
  // From blocks to records

  /** Change lines of newline-free input lines hold no newline. */
  lemma {:induction false} ChangeLinesNoNewline(v: Variant, lines: seq<string>, n: nat, marker: string)
    requires n <= |lines| && |marker| == 1 && Text.NoNewline(lines)
    ensures Text.NoNewline(ChangeLines(v, lines, n, marker))
  {
    if n > 0 {
      var k := n - 1;
      ChangeLinesNoNewline(v, lines, k, marker);
      if IsBodyLine(v, lines, k) && marker <= lines[k] {
        var line := lines[k];
        assert forall m :: 0 <= m < |line[1..]| ==> line[1..][m] == line[m + 1];
        assert '\n' !in line[1..];
      }
    }
  }

  /** Every line of a block's buffers appears in the concatenated buffers. */
  lemma {:induction false} BlockLinesInAll(bs: seq<Block>, k: nat)
    requires k < |bs|
    ensures multiset(bs[k].removed) <= multiset(AllRemoved(bs))
    ensures multiset(bs[k].added) <= multiset(AllAdded(bs))
    decreases |bs|
  {
    if k < |bs| - 1 {
      BlockLinesInAll(bs[..|bs| - 1], k);
    }
  }

  /** A buffer whose lines all occur in a newline-free list is newline-free. */
  lemma SubBufferNoNewline(part: seq<string>, all: seq<string>)
    requires multiset(part) <= multiset(all) && Text.NoNewline(all)
    ensures Text.NoNewline(part)
  {
    forall m | 0 <= m < |part|
      ensures '\n' !in part[m]
    {
      assert part[m] in multiset(part);
      assert part[m] in all;
    }
  }

  /** A record's texts split back into its block's buffers, whenever that
      buffer held a line, and it carries the block's file. */
  ghost predicate SplitsBack(c: ChangeRecord, b: Block) {
    && c.file == b.file
    && (b.removed != [] ==> Text.Split(c.find) == b.removed)
    && (b.added != [] ==> Text.Split(c.replace) == b.added)
  }

  /** When the input lines hold no newline (as after `splitlines()` or
      `split('\n')`), each record's texts split back into exactly the lines of
      its block's buffers, whenever that buffer held a line. */
  lemma RecordsSplitBack(v: Variant, lines: seq<string>)
    ensures var bs := Blocks(v, lines);
            var rs := Segment(v, lines);
            Text.NoNewline(lines) ==> forall k :: 0 <= k < |rs| ==> SplitsBack(rs[k], bs[k])
  {
    if Text.NoNewline(lines) {
      var bs := Blocks(v, lines);
      ChangeLinesPreserved(v, lines);
      ChangeLinesNoNewline(v, lines, |lines|, "-");
      ChangeLinesNoNewline(v, lines, |lines|, "+");
      forall k | 0 <= k < |bs|
        ensures Text.NoNewline(bs[k].removed) && Text.NoNewline(bs[k].added)
      {
        BlockLinesInAll(bs, k);
        SubBufferNoNewline(bs[k].removed, AllRemoved(bs));
        SubBufferNoNewline(bs[k].added, AllAdded(bs));
      }
    }
  }
}

=== FILE: scripts.dfy ===
/**
 The two entry points: `parse_diff_file` on the lines of the diff file, and
 `parse_diff` on the diff text, which it splits on `\n` only.
 */
module Scripts {
  import opened Segmenter
  import opened SegmentProperties
  import Text

  /** `parse_diff_file` after the file has been read with `splitlines()`. */
  function ParseDiffFile(lines: seq<string>): (r: seq<ChangeRecord>)
    ensures r == [] <==> NoChangeLine(SmartPatcher, lines)
    ensures |r| == |Blocks(SmartPatcher, lines)|
    ensures AllRemoved(Blocks(SmartPatcher, lines)) == ChangeLines(SmartPatcher, lines, |lines|, "-")
    ensures AllAdded(Blocks(SmartPatcher, lines)) == ChangeLines(SmartPatcher, lines, |lines|, "+")
    ensures Text.NoNewline(lines) ==>
              forall k :: 0 <= k < |r| ==> SplitsBack(r[k], Blocks(SmartPatcher, lines)[k])
  {
    NoRecordsIffNoChangeLines(SmartPatcher, lines);
    ChangeLinesPreserved(SmartPatcher, lines);
    RecordsSplitBack(SmartPatcher, lines);
    Segment(SmartPatcher, lines)
  }

  /** `parse_diff(diff_text)`. The pieces of a split never hold a newline, so
      every record's texts split back into its block's buffers whenever
      those held a line. */
  function ParseDiff(text: string): (r: seq<ChangeRecord>)
    ensures r == [] <==> NoChangeLine(ExtractDiff, Text.Split(text))
    ensures |r| == |Blocks(ExtractDiff, Text.Split(text))|
    ensures AllRemoved(Blocks(ExtractDiff, Text.Split(text)))
            == ChangeLines(ExtractDiff, Text.Split(text), |Text.Split(text)|, "-")
    ensures AllAdded(Blocks(ExtractDiff, Text.Split(text)))
            == ChangeLines(ExtractDiff, Text.Split(text), |Text.Split(text)|, "+")
    ensures forall k :: 0 <= k < |r| ==> SplitsBack(r[k], Blocks(ExtractDiff, Text.Split(text))[k])
  {
    var lines := Text.Split(text);
    NoRecordsIffNoChangeLines(ExtractDiff, lines);
    ChangeLinesPreserved(ExtractDiff, lines);
    RecordsSplitBack(ExtractDiff, lines);
    Segment(ExtractDiff, lines)
  }
}

=== FILE: segmenter.dfy ===
/**
 The unified-diff hunk segmenter, in the two-loop shape the Python scripts
 use. The outer loop reads file headers and `@@ ` hunk headers; the inner loop
 collects `-` lines into a find buffer and `+` lines into a replace buffer,
 flushes them as one block at every context line, and stops WITHOUT
 consuming the line that ends the hunk, which the outer loop then reads
 again.

 Two scripts share this scan and differ in two predicates, captured by
 `Variant`:
 - `SmartPatcher` (`parse_diff_file`): any `+++ ` line is a header, parsed by
   `Header.PatcherFile`; a hunk ends at `diff `, `+++ ` or `@@ `.
 - `ExtractDiff` (`parse_diff`, both copies): only `+++ b/` is a header; a hunk
   ends only at `diff --git` or `@@ `, so `+++ b/x` inside a hunk is an
   added line.
 */
module Segmenter {
  import opened Wrappers
  import opened Text
  import Header

  datatype Variant = SmartPatcher | ExtractDiff

  /** The file a line names if the outer loop treats it as a file header. */
  function HeaderFile(v: Variant, line: string): (r: Option<string>)
    ensures r.Some? <==> (if v == SmartPatcher then "+++ " <= line else "+++ b/" <= line)
  {
    match v
    case SmartPatcher => if "+++ " <= line then Some(Header.PatcherFile(line)) else None
    case ExtractDiff => if "+++ b/" <= line then Some(Header.ExtractorFile(line)) else None
  }

  /** A hunk header: it opens a hunk and is consumed by the outer loop. */
  predicate IsHunkHeader(line: string) {
    "@@ " <= line
  }

  /** The inner loop stops at this line and leaves it for the outer loop. */
  predicate EndsHunk(v: Variant, line: string) {
    match v
    case SmartPatcher => "diff " <= line || "+++ " <= line || "@@ " <= line
    case ExtractDiff => "diff --git" <= line || "@@ " <= line
  }

  /** Every hunk header ends the hunk before it, in both variants. */
  lemma HunkHeaderEndsHunk(v: Variant, line: string)
    requires IsHunkHeader(line)
    ensures EndsHunk(v, line)
  {
  }

  /** The lines a flush gathered: the file current at the flush and the
      find/replace buffers, each line without its marker character. */
  datatype Block = Block(file: Option<string>, removed: seq<string>, added: seq<string>)

  /** The `{file, find, replace}` record the scripts emit. */
  datatype ChangeRecord = ChangeRecord(file: Option<string>, find: string, replace: string)

  /** The record of a block: both buffers joined with `\n`. A buffer of
      newline-free lines can be recovered from its text unless it was empty,
      and a text is empty exactly when its buffer held no line or one empty
      line. */
  function ToRecord(b: Block): (c: ChangeRecord)
    ensures c.file == b.file
    ensures c.find == "" <==> b.removed == [] || b.removed == [""]
    ensures c.replace == "" <==> b.added == [] || b.added == [""]
    ensures b.removed != [] && NoNewline(b.removed) ==> Split(c.find) == b.removed
    ensures b.added != [] && NoNewline(b.added) ==> Split(c.replace) == b.added
  {
    BufferRoundTrip(b.removed);
    BufferRoundTrip(b.added);
    ChangeRecord(b.file, Join(b.removed), Join(b.added))
  }

  /** A non-empty buffer of newline-free lines splits back out of its join. */
  lemma BufferRoundTrip(lines: seq<string>)
    ensures lines != [] && NoNewline(lines) ==> Split(Join(lines)) == lines
  {
    if lines != [] && NoNewline(lines) {
      SplitJoin(lines);
    }
  }

  predicate NonEmpty(b: Block) {
    b.removed != [] || b.added != []
  }

  /** A flush emits one block when either buffer holds a line, and nothing
      otherwise. */
  function Flush(file: Option<string>, removed: seq<string>, added: seq<string>): (r: seq<Block>)
    ensures |r| <= 1
    ensures |r| == 1 <==> removed != [] || added != []
    ensures forall b :: b in r ==> b == Block(file, removed, added)
  {
    if removed != [] || added != [] then [Block(file, removed, added)] else []
  }

  /** The inner loop, entered at index `i` with the current buffers. Returns
      the index of the line that stopped it (the first hunk-ending line at or
      after `i`, or the end of input) and the blocks it flushed, including
      the final flush of whatever the buffers still hold. */
  function ScanHunk(v: Variant, lines: seq<string>, i: nat, file: Option<string>,
                    removed: seq<string>, added: seq<string>): (r: (nat, seq<Block>))
    requires i <= |lines|
    ensures i <= r.0 <= |lines|
    ensures forall b :: b in r.1 ==> NonEmpty(b) && b.file == file
    decreases |lines| - i
  {
    if i == |lines| || EndsHunk(v, lines[i]) then
      (i, Flush(file, removed, added))
    else
      var line := lines[i];
      if "-" <= line then
        ScanHunk(v, lines, i + 1, file, removed + [line[1..]], added)
      else if "+" <= line then
        ScanHunk(v, lines, i + 1, file, removed, added + [line[1..]])
      else if " " <= line then
        var r := ScanHunk(v, lines, i + 1, file, [], []);
        (r.0, Flush(file, removed, added) + r.1)
      else
        ScanHunk(v, lines, i + 1, file, removed, added)
  }

  /** The inner loop stops at the first hunk-ending line at or after `i`, or
      at the end of input: every line it passes over is inside the hunk. */
  lemma {:induction false} ScanHunkStopsAtTerminator(v: Variant, lines: seq<string>, i: nat, file: Option<string>,
                                                     removed: seq<string>, added: seq<string>)
    requires i <= |lines|
    ensures var j := ScanHunk(v, lines, i, file, removed, added).0;
            && (j == |lines| || EndsHunk(v, lines[j]))
            && forall k :: i <= k < j ==> !EndsHunk(v, lines[k])
    decreases |lines| - i
  {
    if i < |lines| && !EndsHunk(v, lines[i]) {
      var line := lines[i];
      if "-" <= line {
        ScanHunkStopsAtTerminator(v, lines, i + 1, file, removed + [line[1..]], added);
      } else if "+" <= line {
        ScanHunkStopsAtTerminator(v, lines, i + 1, file, removed, added + [line[1..]]);
      } else if " " <= line {
        ScanHunkStopsAtTerminator(v, lines, i + 1, file, [], []);
      } else {
        ScanHunkStopsAtTerminator(v, lines, i + 1, file, removed, added);
      }
    }
  }

  /** The outer loop from index `i` with `file` the current file. A hunk
      header is consumed before the inner loop starts, so the inner loop's
      stopping index is past `i` and the scan terminates. */
  function ScanFrom(v: Variant, lines: seq<string>, i: nat, file: Option<string>): (r: seq<Block>)
    requires i <= |lines|
    ensures forall b :: b in r ==> NonEmpty(b)
    decreases |lines| - i
  {
    if i == |lines| then []
    else
      match HeaderFile(v, lines[i])
      case Some(f) => ScanFrom(v, lines, i + 1, Some(f))
      case None =>
        if IsHunkHeader(lines[i]) then
          var (j, blocks) := ScanHunk(v, lines, i + 1, file, [], []);
          blocks + ScanFrom(v, lines, j, file)
        else
          ScanFrom(v, lines, i + 1, file)
  }

  /** All blocks of a diff given as lines; no file is current at the start. */
  function Blocks(v: Variant, lines: seq<string>): seq<Block> {
    ScanFrom(v, lines, 0, None)
  }

  /** The record list a script returns for a diff given as lines: one record
      per block, in order, each carrying its block's file and texts that
      split back into its block's newline-free buffers whenever those held a
      line. */
  function Segment(v: Variant, lines: seq<string>): (r: seq<ChangeRecord>)
    ensures |r| == |Blocks(v, lines)|
    ensures forall k :: 0 <= k < |r| ==> r[k] == ToRecord(Blocks(v, lines)[k])
    ensures forall k :: 0 <= k < |r| ==> r[k].file == Blocks(v, lines)[k].file
    ensures forall k :: 0 <= k < |r| && NoNewline(Blocks(v, lines)[k].removed) && Blocks(v, lines)[k].removed != []
                        ==> Split(r[k].find) == Blocks(v, lines)[k].removed
    ensures forall k :: 0 <= k < |r| && NoNewline(Blocks(v, lines)[k].added) && Blocks(v, lines)[k].added != []
                        ==> Split(r[k].replace) == Blocks(v, lines)[k].added
  {
    var bs := Blocks(v, lines);
    seq(|bs|, k requires 0 <= k < |bs| => ToRecord(bs[k]))
  }
}

=== FILE: single_pass.dfy ===
/**
 The same segmentation as a single pass over the lines with an explicit
 state record: each line is handled exactly once by `Step`, and the line that
 ends a hunk is handled by first closing the hunk and then treating the line
 as the outer loop would. `BlocksAreSinglePass` proves that the two-loop scan
 of `Segmenter` (which re-reads that line) computes the same blocks.
 */
module SinglePass {
  import opened Wrappers
  import opened Segmenter

  /** Current file, whether a hunk is open, the two buffers, and the blocks
      flushed so far. */
  datatype ScanState = ScanState(file: Option<string>, inHunk: bool,
                                 removed: seq<string>, added: seq<string>, out: seq<Block>)

  const Start := ScanState(None, false, [], [], [])

  /** Closes the open hunk: flushes the buffers and leaves hunk mode. */
  function CloseHunk(s: ScanState): ScanState {
    s.(out := s.out + Flush(s.file, s.removed, s.added), inHunk := false, removed := [], added := [])
  }

  /** Handles one line. */
  function Step(v: Variant, s: ScanState, line: string): ScanState {
    if s.inHunk && !EndsHunk(v, line) then
      if "-" <= line then s.(removed := s.removed + [line[1..]])
      else if "+" <= line then s.(added := s.added + [line[1..]])
      else if " " <= line then s.(out := s.out + Flush(s.file, s.removed, s.added), removed := [], added := [])
      else s
    else
      var t := if s.inHunk then CloseHunk(s) else s;
      match HeaderFile(v, line)
      case Some(f) => t.(file := Some(f))
      case None =>
        if IsHunkHeader(line) then t.(inHunk := true, removed := [], added := []) else t
  }

  /** State after the first `n` lines. */
  function Run(v: Variant, lines: seq<string>, n: nat): ScanState
    requires n <= |lines|
  {
    if n == 0 then Start else Step(v, Run(v, lines, n - 1), lines[n - 1])
  }

  /** State after the lines from `i` on, starting in state `s`. */
  function RunFrom(v: Variant, lines: seq<string>, i: nat, s: ScanState): ScanState
    requires i <= |lines|
    decreases |lines| - i
  {
    if i == |lines| then s else RunFrom(v, lines, i + 1, Step(v, s, lines[i]))
  }

  /** End of input: a hunk still open is flushed. */
  function Close(s: ScanState): seq<Block> {
    if s.inHunk then CloseHunk(s).out else s.out
  }

  /** The blocks of the single pass. */
  function PassBlocks(v: Variant, lines: seq<string>): seq<Block> {
    Close(Run(v, lines, |lines|))
  }

  /** Running the rest of the lines from the state after the first `i` gives
      the state after all lines. */
  lemma {:induction false} RunFromPrefix(v: Variant, lines: seq<string>, i: nat)
    requires i <= |lines|
    ensures RunFrom(v, lines, i, Run(v, lines, i)) == Run(v, lines, |lines|)
    decreases |lines| - i
  {
    if i < |lines| {
      var s := Run(v, lines, i);
      var t := Step(v, s, lines[i]);
      assert Run(v, lines, i + 1) == t;
      assert RunFrom(v, lines, i, s) == RunFrom(v, lines, i + 1, t);
      RunFromPrefix(v, lines, i + 1);
    }
  }

  /** The outer loop from `i` agrees with the single pass from a state with
      no open hunk. */
  lemma {:induction false} OuterAgrees(v: Variant, lines: seq<string>, i: nat, s: ScanState)
    requires i <= |lines|
    requires !s.inHunk && s.removed == [] && s.added == []
    ensures s.out + ScanFrom(v, lines, i, s.file) == Close(RunFrom(v, lines, i, s))
    decreases |lines| - i, 1
  {
    if i == |lines| {
      assert ScanFrom(v, lines, i, s.file) == [] && RunFrom(v, lines, i, s) == s;
    } else {
      var line := lines[i];
      var h := HeaderFile(v, line);
      if h.Some? {
        var t := s.(file := h);
        assert t.out == s.out && t.file == h;
        OuterHeaderStep(v, lines, i, s);
        OuterAgrees(v, lines, i + 1, t);
        assert s.out + ScanFrom(v, lines, i, s.file) == Close(RunFrom(v, lines, i, s));
      } else if IsHunkHeader(line) {
        HunkHeaderAgrees(v, lines, i, s);
      } else {
        OuterSkipStep(v, lines, i, s);
        OuterAgrees(v, lines, i + 1, s);
        assert s.out + ScanFrom(v, lines, i, s.file) == Close(RunFrom(v, lines, i, s));
      }
    }
  }

  /** Outside a hunk, a header line makes its file current in both loops. */
  lemma OuterHeaderStep(v: Variant, lines: seq<string>, i: nat, s: ScanState)
    requires i < |lines| && !s.inHunk && HeaderFile(v, lines[i]).Some?
    ensures RunFrom(v, lines, i, s) == RunFrom(v, lines, i + 1, s.(file := HeaderFile(v, lines[i])))
    ensures ScanFrom(v, lines, i, s.file) == ScanFrom(v, lines, i + 1, HeaderFile(v, lines[i]))
  {
    assert Step(v, s, lines[i]) == s.(file := HeaderFile(v, lines[i]));
  }

  /** Outside a hunk, a line that is neither a header nor a hunk header is
      passed over by both loops. */
  lemma OuterSkipStep(v: Variant, lines: seq<string>, i: nat, s: ScanState)
    requires i < |lines| && !s.inHunk && HeaderFile(v, lines[i]).None? && !IsHunkHeader(lines[i])
    ensures RunFrom(v, lines, i, s) == RunFrom(v, lines, i + 1, s)
    ensures ScanFrom(v, lines, i, s.file) == ScanFrom(v, lines, i + 1, s.file)
  {
    assert Step(v, s, lines[i]) == s;
  }

  /** The state the single pass enters at a hunk header. */
  function Opened(s: ScanState): ScanState {
    s.(inHunk := true, removed := [], added := [])
  }

  /** The outer loop at a hunk header: the inner loop runs from the next
      line, then the outer loop resumes where it stopped. */
  lemma {:induction false} HunkHeaderAgrees(v: Variant, lines: seq<string>, i: nat, s: ScanState)
    requires i < |lines| && HeaderFile(v, lines[i]).None? && IsHunkHeader(lines[i])
    requires !s.inHunk && s.removed == [] && s.added == []
    ensures s.out + ScanFrom(v, lines, i, s.file) == Close(RunFrom(v, lines, i, s))
    decreases |lines| - i, 0
  {
    var o := Opened(s);
    assert o.file == s.file && o.out == s.out && o.removed == [] && o.added == [];
    OpenStep(v, lines, i, s);
    HunkAgrees(v, lines, i + 1, o);
    OuterAtHunkHeader(v, lines, i, s.file);
    var r := ScanHunk(v, lines, i + 1, s.file, [], []);
    Regroup(s.out, r.1, ScanFrom(v, lines, r.0, s.file), ScanFrom(v, lines, i, s.file),
            Close(RunFrom(v, lines, i, s)));
  }

  /** The single pass at a hunk header opens a hunk with empty buffers. */
  lemma OpenStep(v: Variant, lines: seq<string>, i: nat, s: ScanState)
    requires i < |lines| && HeaderFile(v, lines[i]).None? && IsHunkHeader(lines[i])
    requires !s.inHunk
    ensures RunFrom(v, lines, i, s) == RunFrom(v, lines, i + 1, Opened(s))
  {
    assert Step(v, s, lines[i]) == Opened(s);
  }

  /** The outer loop at a hunk header: the inner loop's blocks, then the
      outer loop from where the inner loop stopped. */
  lemma OuterAtHunkHeader(v: Variant, lines: seq<string>, i: nat, file: Option<string>)
    requires i < |lines| && HeaderFile(v, lines[i]).None? && IsHunkHeader(lines[i])
    ensures var r := ScanHunk(v, lines, i + 1, file, [], []);
            ScanFrom(v, lines, i, file) == r.1 + ScanFrom(v, lines, r.0, file)
  {
  }

  /** Regrouping an output followed by a scan that is itself two parts. */
  lemma Regroup(out: seq<Block>, first: seq<Block>, rest: seq<Block>, scan: seq<Block>, closed: seq<Block>)
    requires out + first + rest == closed && scan == first + rest
    ensures out + scan == closed
  {
    assert out + (first + rest) == out + first + rest;
  }

  /** The inner loop from `i` followed by the outer loop from where it stops
      agrees with the single pass from a state with an open hunk. */
  lemma {:induction false} HunkAgrees(v: Variant, lines: seq<string>, i: nat, s: ScanState)
    requires i <= |lines|
    requires s.inHunk
    ensures var r := ScanHunk(v, lines, i, s.file, s.removed, s.added);
            s.out + r.1 + ScanFrom(v, lines, r.0, s.file) == Close(RunFrom(v, lines, i, s))
    decreases |lines| - i, 2
  {
    if i == |lines| {
    } else {
      var s' := Step(v, s, lines[i]);
      assert RunFrom(v, lines, i, s) == RunFrom(v, lines, i + 1, s');
      if EndsHunk(v, lines[i]) {
        var s2 := CloseHunk(s);
        assert s' == Step(v, s2, lines[i]);
        assert RunFrom(v, lines, i, s2) == RunFrom(v, lines, i + 1, s');
        OuterAgrees(v, lines, i, s2);
      } else {
        BodyLineAgrees(v, lines, i, s);
        HunkAgrees(v, lines, i + 1, s');
      }
    }
  }

  /** One step of the inner loop on a line that does not end the hunk: the
      single pass keeps the hunk open, and the blocks the inner loop
      flushes from here on are those flushed by the step followed by those
      the inner loop flushes from the next line. */
  lemma BodyLineAgrees(v: Variant, lines: seq<string>, i: nat, s: ScanState)
    requires i < |lines| && s.inHunk && !EndsHunk(v, lines[i])
    ensures var s' := Step(v, s, lines[i]);
            var r := ScanHunk(v, lines, i, s.file, s.removed, s.added);
            var r' := ScanHunk(v, lines, i + 1, s'.file, s'.removed, s'.added);
            && s'.inHunk && s'.file == s.file
            && r.0 == r'.0 && s.out + r.1 == s'.out + r'.1
  {
    var line := lines[i];
    if !("-" <= line) && !("+" <= line) && " " <= line {
      var r := ScanHunk(v, lines, i + 1, s.file, [], []);
      var fl := Flush(s.file, s.removed, s.added);
      assert s.out + (fl + r.1) == (s.out + fl) + r.1;
    }
  }

  /** The two-loop scan of the scripts and the single pass produce the same
      blocks, for every variant and every input. */
  lemma BlocksAreSinglePass(v: Variant, lines: seq<string>)
    ensures Blocks(v, lines) == PassBlocks(v, lines)
  {
    OuterAgrees(v, lines, 0, Start);
    RunFromPrefix(v, lines, 0);
    assert Start.out + Blocks(v, lines) == Blocks(v, lines);
  }
}

=== FILE: text.dfy ===
/**
 Python string operations the diff tools rely on: prefix tests, `strip()`,
 `'\n'.join`, `split('\n')`, the `in` substring test and `replace(old, new, 1)`.
 */
module Text {
  import opened Wrappers

  /** Characters Python's `str.isspace()` (and the `\s` class of `re`) accepts,
      restricted to the Latin-1 range. */
  predicate IsSpace(c: char) {
    c == ' ' || c == '\t' || c == '\n' || c == '\r' || c == '\U{000B}' || c == '\U{000C}'
    || c == '\U{001C}' || c == '\U{001D}' || c == '\U{001E}' || c == '\U{001F}'
    || c == '\U{0085}' || c == '\U{00A0}'
  }

  /** ASCII decimal digit, the `\d` of the header pattern. */
  predicate IsDigit(c: char) {
    '0' <= c <= '9'
  }

  predicate NoSpace(s: string) {
    forall k :: 0 <= k < |s| ==> !IsSpace(s[k])
  }

  // ---------------------------------------------------------------------------
  // strip()

  /** `s.lstrip()`: drops the leading whitespace. */
  function LStrip(s: string): (r: string)
    ensures |r| <= |s| && r == s[|s| - |r|..]
    ensures forall k :: 0 <= k < |s| - |r| ==> IsSpace(s[k])
    ensures r == [] || !IsSpace(r[0])
  {
    if |s| > 0 && IsSpace(s[0]) then LStrip(s[1..]) else s
  }

  /** `s.rstrip()`: drops the trailing whitespace. */
  function RStrip(s: string): (r: string)
    ensures |r| <= |s| && r == s[..|r|]
    ensures forall k :: |r| <= k < |s| ==> IsSpace(s[k])
    ensures r == [] || !IsSpace(r[|r| - 1])
  {
    if |s| > 0 && IsSpace(s[|s| - 1]) then RStrip(s[..|s| - 1]) else s
  }

  /** `s.strip()`: no whitespace is left at either end. */
  function Strip(s: string): (r: string)
    ensures |r| <= |s|
    ensures r == [] || (!IsSpace(r[0]) && !IsSpace(r[|r| - 1]))
  {
    var l := LStrip(s);
    var r := RStrip(l);
    assert r == [] || r[0] == l[0];
    r
  }

  /** strip() keeps a contiguous slice, drops only whitespace, and leaves no
      whitespace at either end. */
  lemma StripIsSlice(s: string)
    ensures exists i, j :: 0 <= i <= j <= |s| && Strip(s) == s[i..j]
                           && (forall k :: 0 <= k < i ==> IsSpace(s[k]))
                           && (forall k :: j <= k < |s| ==> IsSpace(s[k]))
    ensures Strip(s) == [] || (!IsSpace(Strip(s)[0]) && !IsSpace(Strip(s)[|Strip(s)| - 1]))
  {
    var l := LStrip(s);
    var r := RStrip(l);
    var i := |s| - |l|;
    var j := i + |r|;
    assert Strip(s) == r;
    SliceOfSuffix(s, l, r);
  }

  /** A prefix of a suffix is a slice, and what follows the prefix in the
      suffix is what follows the slice in the whole. */
  lemma SliceOfSuffix(s: string, l: string, r: string)
    requires |l| <= |s| && l == s[|s| - |l|..]
    requires |r| <= |l| && r == l[..|r|]
    ensures r == s[|s| - |l|..|s| - |l| + |r|]
    ensures forall k :: |s| - |l| + |r| <= k < |s| ==> s[k] == l[k - (|s| - |l|)]
  {
  }

  // ---------------------------------------------------------------------------
  // '\n'.join(lines) and text.split('\n')

  /** `'\n'.join(lines)`. The join is empty exactly for no lines or one empty
      line, which is why a split cannot tell those two apart. */
  function Join(lines: seq<string>): (r: string)
    ensures r == "" <==> lines == [] || lines == [""]
  {
    if |lines| == 0 then ""
    else if |lines| == 1 then lines[0]
    else lines[0] + "\n" + Join(lines[1..])
  }

  /** `text.split('\n')`: always at least one piece, none holding a `\n`. */
  function Split(text: string): (r: seq<string>)
    ensures |r| >= 1
    ensures forall k :: 0 <= k < |r| ==> '\n' !in r[k]
  {
    if |text| == 0 then [""]
    else if text[0] == '\n' then [""] + Split(text[1..])
    else
      var rest := Split(text[1..]);
      [[text[0]] + rest[0]] + rest[1..]
  }

  predicate NoNewline(lines: seq<string>) {
    forall k :: 0 <= k < |lines| ==> '\n' !in lines[k]
  }

  /** Joining the pieces of a split gives the text back. */
  lemma {:induction false} JoinSplit(text: string)
    ensures Join(Split(text)) == text
  {
    if |text| == 0 {
    } else if text[0] == '\n' {
      JoinSplit(text[1..]);
      assert text == "\n" + text[1..];
    } else {
      var rest := Split(text[1..]);
      JoinSplit(text[1..]);
      if |rest| == 1 {
        assert text == [text[0]] + text[1..];
      } else {
        assert rest == [rest[0]] + rest[1..];
        assert Join(rest) == rest[0] + "\n" + Join(rest[1..]);
        var r := [[text[0]] + rest[0]] + rest[1..];
        assert r[1..] == rest[1..];
        assert text == [text[0]] + text[1..];
      }
    }
  }

  /** A newline-free piece followed by a newline splits off as one piece. */
  lemma {:induction false} SplitCons(a: string, b: string)
    requires '\n' !in a
    ensures Split(a + "\n" + b) == [a] + Split(b)
    decreases |a|
  {
    if |a| == 0 {
      assert a + "\n" + b == "\n" + b;
    } else {
      assert (a + "\n" + b)[1..] == a[1..] + "\n" + b;
      SplitCons(a[1..], b);
      assert [a[0]] + a[1..] == a;
    }
  }

  /** A newline-free text is one piece. */
  lemma {:induction false} SplitNoNewline(a: string)
    requires '\n' !in a
    ensures Split(a) == [a]
    decreases |a|
  {
    if |a| > 0 {
      SplitNoNewline(a[1..]);
      assert [a[0]] + a[1..] == a;
    }
  }

  /** Splitting a join of newline-free lines gives the lines back (a join of
      no lines is "", which splits to one empty line, hence |lines| >= 1). */
  lemma {:induction false} SplitJoin(lines: seq<string>)
    requires |lines| >= 1 && NoNewline(lines)
    ensures Split(Join(lines)) == lines
  {
    if |lines| == 1 {
      SplitNoNewline(lines[0]);
    } else {
      SplitJoin(lines[1..]);
      SplitCons(lines[0], Join(lines[1..]));
      assert lines == [lines[0]] + lines[1..];
    }
  }

  // ---------------------------------------------------------------------------
  // `pat in s` and `s.replace(pat, rep, 1)`

  /** `pat` occurs in `s` starting at index `p`. */
  predicate Occurs(s: string, pat: string, p: nat) {
    p + |pat| <= |s| && s[p..p + |pat|] == pat
  }

  /** `pat in s`. */
  ghost predicate IsSubstring(pat: string, s: string) {
    exists p: nat :: Occurs(s, pat, p)
  }

  /** `p` is the leftmost occurrence of `pat` in `s`. */
  predicate FirstOccurrence(s: string, pat: string, p: nat) {
    Occurs(s, pat, p) && forall q: nat :: q < p ==> !Occurs(s, pat, q)
  }

  /** Leftmost occurrence of `pat` in `s` at or after `from`. */
  function IndexFrom(s: string, pat: string, from: nat): (r: Option<nat>)
    ensures r.Some? ==> from <= r.value && Occurs(s, pat, r.value)
                        && forall q: nat :: from <= q < r.value ==> !Occurs(s, pat, q)
    ensures r.None? ==> forall q: nat :: from <= q ==> !Occurs(s, pat, q)
    decreases |s| - from
  {
    if from + |pat| > |s| then None
    else if s[from..from + |pat|] == pat then Some(from)
    else IndexFrom(s, pat, from + 1)
  }

  /** `s.find(pat)`, as an option: the leftmost occurrence, if any. */
  function Index(s: string, pat: string): (r: Option<nat>)
    ensures r.Some? <==> IsSubstring(pat, s)
    ensures r.Some? ==> FirstOccurrence(s, pat, r.value)
  {
    IndexFrom(s, pat, 0)
  }

  /** `pat in s`, computed. */
  predicate Contains(s: string, pat: string): (b: bool)
    ensures b <==> IsSubstring(pat, s)
  {
    Index(s, pat).Some?
  }

  /** `s.replace(pat, rep, 1)`: only the leftmost occurrence is replaced; an
      empty `pat` occurs at index 0, so `rep` is then put in front. */
  function ReplaceFirst(s: string, pat: string, rep: string): (r: string)
    ensures !IsSubstring(pat, s) ==> r == s
    ensures forall p: nat :: FirstOccurrence(s, pat, p) ==> r == s[..p] + rep + s[p + |pat|..]
  {
    match Index(s, pat)
    case None => s
    case Some(p) => s[..p] + rep + s[p + |pat|..]
  }

  /** Replacing text by itself changes nothing. */
  lemma ReplaceBySelf(s: string, pat: string)
    ensures ReplaceFirst(s, pat, pat) == s
  {
    match Index(s, pat)
    case None =>
    case Some(p) =>
      assert s == s[..p] + s[p..p + |pat|] + s[p + |pat|..];
  }

  /** Only the first occurrence is replaced: any later, non-overlapping
      occurrence survives, shifted by the change in length. */
  lemma ReplaceKeepsLaterOccurrence(s: string, pat: string, rep: string, p: nat, q: nat)
    requires FirstOccurrence(s, pat, p)
    requires Occurs(s, pat, q) && p + |pat| <= q
    ensures Occurs(ReplaceFirst(s, pat, rep), pat, q - |pat| + |rep|)
  {
    assert ReplaceFirst(s, pat, rep) == s[..p] + rep + s[p + |pat|..];
    OccursAfterSplice(s, pat, rep, p, q);
  }

  /** An occurrence after a spliced-out piece moves with the splice. */
  lemma OccursAfterSplice(s: string, pat: string, rep: string, p: nat, q: nat)
    requires Occurs(s, pat, q) && p + |pat| <= q
    ensures Occurs(s[..p] + rep + s[p + |pat|..], pat, q - |pat| + |rep|)
  {
    var head := s[..p] + rep;
    var tail := s[p + |pat|..];
    var front := s[..p + |pat|];
    var m := q - p - |pat|;
    assert s == front + tail && |front| + m == q;
    SliceOfConcat(front, tail, m, m + |pat|);
    var q' := q - |pat| + |rep|;
    assert |head| + m == q';
    SliceOfConcat(head, tail, m, m + |pat|);
  }

  /** A slice of the second part of a concatenation. */
  lemma SliceOfConcat(a: string, b: string, m: nat, n: nat)
    requires m <= n <= |b|
    ensures (a + b)[|a| + m..|a| + n] == b[m..n]
  {
  }
}

=== FILE: wrappers.dfy ===
/** Option type shared by the header parser, the scan and the applier. */
module Wrappers {

  /** Python's `None` or a present value. */
  datatype Option<+T> = None | Some(value: T)
}
